=== FILE: README.md ===
# ts-report-action in Dafny

This is a model of the two entry points of the `ts-report-action` GitHub Action.

**The pull-request reporter (`src/main.ts`).** The reporter runs `yarn --silent tsc-files --noEmit <files…>`. It acts on the exit status:

- Status 0: it does nothing.
- Status 2: it turns the compiler's stdout into a list of error *locations*:
  - it keeps the lines that are not indented and that start with one of the requested files;
  - it splits each line at its first colon;
  - it rewrites a trailing `(line,col)` to `#L<line>`;
  - it links the location into the repository tree.
- Any other status, or an error reported by the spawn (a launch failure, or output beyond the `maxBuffer` limit): it fails the run.

For status 2 it then posts one comment to the pull request. The comment holds a collapsible table and a "Create an issue" link. The link's title and body are percent-encoded.

**The full-program report (`src/index.ts`).** This entry point:

- reads a `tsconfig.json`;
- narrows it to the requested files by spreading an override object over it;
- collects the compiler's semantic diagnostics, sorts and deduplicates them, and keeps those that have no file or that belong to a root file;
- emits one `core.error` annotation per kept diagnostic, with a 1-based position when there is one.

The model is split into modules:

| module | file | what it holds |
|---|---|---|
| `Wrappers` | wrappers.dfy | `Option` and `Result` |
| `Seqs` | seqs.dfy | `Array.prototype.filter` as `Filter`, with the subsequence order it keeps |
| `JsString` | jsstring.dfy | The JavaScript string operations the action uses: `trim` over the ECMAScript white-space and line-terminator set, `startsWith`, `split` on one character and `join`. `Split` and `Join` are proved to be inverse. |
| `Decimal` | decimal.dfy | `${n}` for a natural number, with its value and canonical form |
| `Uri` | uri.dfy | `encodeURIComponent` (UTF-8 octets, `%XY` escapes in upper-case hex), with a decoder and the round-trip proof |
| `Report` | report.dfy | The stdout-to-locations pipeline, the issue title and body, the table, and the comment body |
| `PullRequest` | pullrequest.dfy | The `check` control flow of `src/main.ts`: pull-request gate, spawn, status dispatch, and the comment that is posted |
| `Config` | config.dfy | JSON values, object spread, and the `getFilesOptions` override merge |
| `Diagnostics` | diagnostics.dfy | The diagnostic filter, the position computation, the annotation loop, and the `check` of `src/index.ts` |

Several inputs and effects are passed in as parameters, so the contracts quantify over every possible behaviour of them:

- **The action context.** `PullRequest.Context` holds the owner, the repository and the optional pull-request number.
- **The process spawn.** A function `Invocation -> SpawnResult`.
- **The compiler.** `Diagnostics.Api`, a record of functions: `parseJsonConfigFileContent`, `createProgram` plus `getSemanticDiagnostics`, `sortAndDeduplicateDiagnostics`, `flattenDiagnosticMessageText` and `getLineAndCharacterOfPosition`.

Effects are returned as values rather than performed:

- A `PullRequest.Run` records the invocation and the outcome: the failure passed to `setFailed`, no comment, or the comment passed to `createComment`.
- `Diagnostics.Check` returns the failure message or the list of annotations.

Behaviours of the code that are modelled exactly as written:

- A pull-request number of `0` counts as "not in a pull request". This is the `!prNumber` test.
- A `null` exit status (the process was killed by a signal) counts as an unexpected exit.
- An empty entry in the requested files makes every non-indented line a reported line. Splitting an empty `files` input yields exactly that entry `[""]`.
- An exit status of 2 posts a comment even when no location survives the filter. The table line is then empty.
- A diagnostic whose file name is the empty string passes the root-file filter. This is the `!diagnostic.file?.fileName` test.
- A diagnostic at offset `0` gets no position, exactly like one without a file. This is the `!diagnostic.start` test.
- `src/index.ts` always calls `check` with `files.split(' ')`, which is never `undefined`. The file override is therefore always applied, even when the `files` input is empty.
- With no override, the merge still writes `compilerOptions` back as a copy of the original's spread. A missing `compilerOptions` becomes `{}`, and a non-object one is replaced by the spread of that value.

## Model

| member | source | states |
|---|---|---|
| Report.ReportedLines | src/main.ts:64-70 | Every line kept from the trimmed, newline-split stdout is a single line that is not indented and starts with one of the requested files |
| Report.ReportedLinesMembership | src/main.ts:64-70 | A line is kept if and only if it is one of the lines of the trimmed stdout, is not indented, and starts with some requested file. A kept line is reported as many times as it occurs in the output. |
| Report.ReportedLinesInOrder | src/main.ts:64-70 | The kept lines are a subsequence of stdout's lines: the filter keeps the compiler's order |
| Report.EmptyFileMatchesAll | src/main.ts:69 | When the requested files contain the empty string, every non-indented line is reported |
| Report.SplitAtColon | src/main.ts:72 | The destructured head contains no colon, and head, `:` and the re-joined rest give back the line. A line without a colon gives itself and an empty rest. |
| Report.SplitLocation | src/main.ts:72-80 | The location is the colon-free prefix of the line that ends at its first colon, and the error is the trimmed text after that colon. A line without a colon is its own location, with an empty error. |
| Report.SplitLocationAt | src/main.ts:72-80 | For a colon-free location, `location:rest` splits into that location and the trimmed rest, even when the rest contains more colons |
| Report.SplitLocationNoNewline | src/main.ts:72-80 | A line without a line break yields a location and an error without one |
| Report.MatchPositionSound | src/main.ts:73-76 | When the `\(([0-9]+),[0-9]+\)$` matcher fires, the location really is `prefix(line,col)` with non-empty digit runs |
| Report.MatchPositionComplete | src/main.ts:73-76 | Every location of the form `prefix(line,col)` is matched, with exactly that prefix and line number |
| Report.GithubPath | src/main.ts:73-76 | A location `prefix(line,col)` becomes `prefix#L<line>`: the column is dropped. A location not ending in `(digits,digits)` is left unchanged. The rewrite never lengthens the path and adds no line break. |
| Report.Url | src/main.ts:79 | The url is the base url, `/tree/main/`, then the rewritten path: `prefix#L<line>` for `prefix(line,col)`, the location itself otherwise |
| Report.LocationUrls | src/main.ts:18-79 | Every link of the reported locations is `https://github.com/<owner>/<repo>/tree/main/` followed by the rewritten location |
| Report.BaseUrl | src/main.ts:18 | The base url is `https://github.com/`, the owner, `/`, then the repository |
| Report.ToLocation | src/main.ts:71-82 | One kept line becomes its colon-free location up to the first colon, the trimmed error after it (empty when there is no colon), and the url of that location; a single line gives a single-line location and error |
| Report.Locations | src/main.ts:64-82 | One location per kept line, in order. Each location and error are the first-colon split of its line, with the error trimmed, and its url is the link built from that location. With a single-line base url, every location, url and error is a single line. |
| Report.SingleErrorLine | src/main.ts:64-82 | For a non-empty, colon-free `file` that does not start with white space, digit runs `l` and `c`, and a message without white space at its ends, with no line break in `file` or the message: stdout consisting of the one line `file(l,c): message`, with `file` requested, yields exactly one location: `file(l,c)`, url `…/tree/main/file#Ll`, error `message` |
| Report.ErrorLineLocation | src/main.ts:71-82 | For a colon-free `file`, digit runs `l` and `c`, and a message without white space at its ends, the line `file(l,c): message` becomes location `file(l,c)`, url `…/tree/main/file#Ll` and error `message` |
| Report.ErrorLineParts | src/main.ts:72-76 | For a colon-free `file`, digit runs `l` and `c`, and a message without white space at its ends, the line `file(l,c): message` splits at its first colon into `file(l,c)` and the message, and that location has the `prefix(line,col)` form the rewrite matches |
| Report.OneLineLocations | src/main.ts:64-82 | Output that is one kept line gives exactly the one location of that line |
| Report.MessageAfterColon | src/main.ts:80 | For `location: message` with a colon-free location and a message without white space at its ends, the location is kept and the error is exactly the message |
| Report.IssueTitle | src/main.ts:84 | The title is `TypeScript errors - #` followed by the pull-request number as decimal digits whose value is the number and that have no leading zero |
| Report.IssueLines | src/main.ts:85-90 | The issue body's list of lines has one entry per location plus one for the reference line |
| Report.IssueBodyLines | src/main.ts:85-90 | Splitting the issue body at newlines gives back exactly one `- [ ] [location](url): \`error\`` line per location, in order, followed by `Ref <base>/pull/<n>` |
| Report.TableRows | src/main.ts:95-99 | One table row per location, in order. Row i is `| [location](url) | `error` |` of location i. |
| Report.EncodedNoNewline | src/main.ts:92-93 | An encoded title or body contains no newline, so the link fits on the summary line |
| Report.SummaryNoNewline | src/main.ts:104 | When the base url has no line break, the "Create an issue" summary line is a single line |
| Report.CommentBody | src/main.ts:101-111 | The comment starts with `<details>\n<summary>\n` and ends with `\n</details>` |
| Report.DetailsEnds | src/main.ts:101-111 | Any nine-part details list joined by newlines starts with the `<details>` opening and ends with the closing tag |
| Report.DetailsLines | src/main.ts:101-111 | Splitting the joined details list at newlines gives back its parts, with the table expanded into its rows, or one empty line when there are no rows |
| Report.CommentBodyLines | src/main.ts:95-111 | The comment's lines are the five opening lines, the two header lines, then one line per location (or one empty line when there are none), then `</details>` |
| Uri.EncodeComponent | src/main.ts:92-93 | The encoding contains only unreserved characters and `%`, and is at least as long as its input |
| Uri.EncodeDecode | src/main.ts:92-93 | Percent-decoding followed by UTF-8 decoding of the encoding gives back the original string: the issue link carries title and body unchanged |
| Uri.Utf8RoundTrip | src/main.ts:92-93 | The 1–4 UTF-8 octets of a code point decode back to it |
| Uri.EscapesRead | src/main.ts:92-93 | A run of `%XY` escapes reads back as its octets |
| Uri.HexRoundTrip | src/main.ts:92-93 | An octet's two upper-case hex digits read back as the octet |
| Decimal.FromNat | src/main.ts:84 | `${n}` is a non-empty run of digits without a leading zero whose value is `n` |
| PullRequest.Check | src/main.ts:16-62 | Nothing is spawned if and only if there is no pull-request number (or it is 0), and that case fails with "Not in PR". Otherwise exactly `yarn --silent tsc-files --noEmit files…` is spawned. No comment if and only if it exits with status 0. A comment if and only if it exits with 2, and its body is the comment for the locations of that stdout. A spawn-error failure, carrying the spawn's error, if and only if spawnSync reports an error (a launch failure, or output beyond the `maxBuffer` limit). An unexpected-exit failure, carrying the status, stdout, stderr and files, if and only if it exits with any other status, including a null one. A comment goes to the run's own owner, repository and pull request, with the details wrapper. |
| PullRequest.ReportComment | src/main.ts:115-121 | The comment goes to the run's owner, repository and pull-request number, and its body is wrapped in `<details>` … `</details>` |
| PullRequest.PostedCommentLines | src/main.ts:64-121 | For exit status 2, the posted comment has one location per kept line, and its lines are the five opening lines, the two header lines, one table row per location (or one empty line when there are none), then `</details>` |
| PullRequest.TscFiles | src/main.ts:27-32 | The command is `yarn` with the arguments `--silent`, `tsc-files`, `--noEmit`, followed by the requested files, unchanged and in order |
| PullRequest.Message | src/main.ts:20-22 | Running outside a pull request fails with the message `Not in PR` |
| PullRequest.EmptyReportStillPosts | src/main.ts:64-121 | When no requested file is the empty string, exit status 2 with empty stdout still posts a comment, namely the comment for zero locations |
| PullRequest.NothingKeptFromEmptyOutput | src/main.ts:64-70 | Empty stdout yields no location when no requested file is the empty string |
| PullRequest.RequestedFiles | src/main.ts:127-129 | The `files` input split at spaces has at least one entry, no entry contains a space, and joining with spaces gives the input back |
| PullRequest.EmptyInputRequestsEverything | src/main.ts:127-129 | An empty `files` input becomes `[""]`, which reports every non-indented line |
| Config.Spread | src/index.ts:30-35 | Object spread copies an object's members. It adds nothing for null, booleans, numbers or undefined. For an array it gives exactly the keys `"0"` … `"n-1"`, key i holding item i; for a string the same keys, key i holding the one-character string at i. |
| Config.IndexedMembers | src/index.ts:30-35 | The members built from a list have exactly the keys `"0"` … `"n-1"`, key i holding the i-th value |
| Config.FilesOptions | src/index.ts:14-24 | No files gives `{}`. Files give exactly the keys `compilerOptions`, `files` and `include`. |
| Config.Merge | src/index.ts:28-36 | The merged configuration has the original keys, the override keys and `compilerOptions`. Every other key keeps its original value. `compilerOptions` is the spread of the original options, with `skipLibCheck` set to `true` when files are given and nothing else added. |
| Config.MergeWithFiles | src/index.ts:14-36 | With files, `files` is exactly the requested list, `include` is `[]`, and the compiler options are exactly the spread of the original ones with `skipLibCheck` set to `true`, whatever the original said |
| Config.MergeKeepsOtherKeys | src/index.ts:28-36 | A top-level key the override does not set keeps its original value |
| Config.MergeKeepsOtherOptions | src/index.ts:32-35 | Every original compiler option other than `skipLibCheck` keeps its value |
| Config.MergeWithoutFiles | src/index.ts:15 | Without files, the result is the original with `compilerOptions` replaced by its own spread. That is the original itself when the options are an object, and `{}` when they are absent. |
| Diagnostics.Reported | src/index.ts:54-58 | Every kept diagnostic has no file, an empty file name, or a file name among the root files |
| Diagnostics.UnnamedReported | src/index.ts:55 | A diagnostic without a file, or whose file name is empty, is always kept |
| Diagnostics.FileName | src/index.ts:88 | The file name is present exactly when the diagnostic has a file, and is then that file's name |
| Diagnostics.FileReportedIff | src/index.ts:54-58 | A diagnostic with a non-empty file name is kept if and only if that name is a root file, and then once per occurrence |
| Diagnostics.ReportedInOrder | src/index.ts:54-58 | The kept diagnostics are a subsequence of the sorted ones |
| Diagnostics.DiagnosticPosition | src/index.ts:61-78 | Line and column are both present or both absent. They are present if and only if the diagnostic has a file and a non-zero start, and are then the compiler's 0-based line and character plus one, so both are at least 1. |
| Diagnostics.Annotate | src/index.ts:80-91 | The annotation carries the flattened message and the diagnostic's file name (absent without a file), with the 1-based position as above |
| Diagnostics.Annotations | src/index.ts:60-92 | One annotation per kept diagnostic, in order |
| Diagnostics.Check | src/index.ts:5-92 | The run fails if and only if reading the configuration failed, and then with the flattened error message. Otherwise it emits one annotation per sorted, deduplicated and filtered diagnostic of the program built from the merged configuration. |
| Diagnostics.AnnotationsStayInRootFiles | src/index.ts:54-91 | No annotation names a file outside the configuration's root files, except those without a file or with an empty file name |
| Diagnostics.EntryFiles | src/index.ts:100-102 | The entry point always passes a file list: at least one piece, none containing a space, joining with spaces back to the input, which is exactly the input split at spaces. The override is therefore always applied. |
| JsString.SplitJoin | src/main.ts:64-66 | Splitting the join of a non-empty list of separator-free pieces gives the pieces back |
| JsString.SplitCount | src/main.ts:66 | Splitting yields one more piece than there are separators |
| JsString.Split | src/main.ts:66 | `split` yields at least one piece, no piece contains the separator, and joining the pieces with the separator gives the string back |
| JsString.TrimIdempotent | src/main.ts:65 | Trimming twice is trimming once |
| JsString.Trim | src/main.ts:65 | The trimmed string is the infix of the original that follows its leading white space, only white space comes after it, it neither starts nor ends with white space, and it is empty if and only if the original is all white space |
| JsString.TrimSubset | src/main.ts:65 | Every character of a trimmed string occurs in the original |
| JsString.TrimUnchanged | src/main.ts:65 | A string that neither starts nor ends with white space is its own trim |
| Seqs.FilterMembership | src/main.ts:67-70 | An element is kept if and only if it occurs in the input and satisfies the predicate |
| Seqs.FilterCount | src/main.ts:67-70 | A kept value occurs in the output exactly as often as in the input, and a dropped value not at all: filtering never merges duplicates |
| Seqs.Filter | src/main.ts:67-70 | The kept elements all satisfy the predicate, come from the input, and are no more than the input |
| Seqs.FilterIsSubsequence | src/index.ts:54 | Filtering keeps the input's order |

## Left out

- Logging (`debug`, `util.inspect`) is not modelled. It has no effect on the result.
- The text of the unexpected-exit failure is not modelled. It is the `util.inspect` rendering of the spawn result, and `PullRequest.Message` has no text for it. The failure value keeps the status, stdout, stderr and files it is built from.
- `getInput`, `setFailed`, the Octokit client and the GitHub token are left out. They are I/O: inputs become parameters and the effects are returned as values.
- `await` and promise rejection are left out, and so is the entry points' `catch`, which reports a thrown `Error`'s message. The model has no exceptions.
- The TypeScript compiler (configuration parsing, program creation, type checking, sorting and deduplicating, message flattening, line mapping) is not modelled. It is an opaque `Diagnostics.Api` parameter, so nothing is claimed about it. `sortAndDeduplicate` is not proved idempotent, because that depends on the compiler.
- `configFileParsingDiagnostics`, the directory and base-name arguments of `parseJsonConfigFileContent`, and `path.resolve` are left out. The project path and its default `tsconfig.json` are left out too. Each of these only forwards values to the compiler.
- Config.Spread: key order of the spread object is not modelled. JSON objects are maps. Numbers are reals.
- `context.payload.pull_request.number` is a JavaScript number; the model takes it as an optional natural number. Negative, fractional and `NaN` values, and the exponent spelling `${n}` gives from `1e21` on, are not modelled: GitHub pull-request numbers are small positive integers.
- JsString.Trim: characters are code points, not UTF-16 code units; strings containing surrogate pairs are treated per code point.
- Config.Spread: spreading a string gives one key per code point, where JavaScript gives one per UTF-16 code unit, so a string with a character outside the Basic Multilingual Plane gets fewer keys than in JavaScript.
- Uri.EncodeComponent: `encodeURIComponent` throws on a lone surrogate; strings are sequences of code points, so the model has no lone surrogates and no such error.

=== FILE: config.dfy ===
/**
 * The configuration override of the full-program entry point
 * (`src/index.ts`): `getFilesOptions` and the object-spread merge of the
 * `tsconfig.json` contents with it. JSON objects are maps; key order, which
 * only affects how an object prints, is not represented.
 */
module Config {
  import opened Wrappers
  import Decimal

  /** A parsed JSON value. */
  datatype Json =
    | JNull
    | JBool(b: bool)
    | JNumber(n: real)
    | JString(s: string)
    | JArray(items: seq<Json>)
    | JObject(members: map<string, Json>)

  /** The own enumerable properties object spread `{...v}` copies; `None` stands for `undefined`. */
  function Spread(v: Option<Json>): (m: map<string, Json>)
    ensures v.Some? && v.value.JObject? ==> m == v.value.members
    ensures v.None? || v.value.JNull? || v.value.JBool? || v.value.JNumber? ==> m == map[]
    ensures v.Some? && v.value.JArray? ==>
              && m.Keys == IndexKeys(|v.value.items|)
              && forall i :: 0 <= i < |v.value.items| ==> m[Decimal.FromNat(i)] == v.value.items[i]
    ensures v.Some? && v.value.JString? ==>
              && m.Keys == IndexKeys(|v.value.s|)
              && forall i :: 0 <= i < |v.value.s| ==> m[Decimal.FromNat(i)] == JString([v.value.s[i]])
  {
    match v
    case Some(JObject(members)) => members
    case Some(JArray(items)) => IndexedMembers(items)
    case Some(JString(s)) => IndexedMembers(seq(|s|, i requires 0 <= i < |s| => JString([s[i]])))
    case _ => map[]
  }

  /** The property names `"0"`, `"1"`, …, `"n-1"` of an array-like value of length `n`. */
  function IndexKeys(n: nat): set<string> {
    set i | 0 <= i < n :: Decimal.FromNat(i)
  }

  /** The members `{"0": values[0], "1": values[1], …}` that spreading an array-like value copies. */
  function IndexedMembers(values: seq<Json>): (m: map<string, Json>)
    ensures m.Keys == IndexKeys(|values|)
    ensures forall i :: 0 <= i < |values| ==> m[Decimal.FromNat(i)] == values[i]
  {
    var m := map i | 0 <= i < |values| :: Decimal.FromNat(i) := values[i];
    assert forall k :: k in m.Keys ==> k in IndexKeys(|values|);
    assert forall k :: k in IndexKeys(|values|) ==> k in m.Keys;
    m
  }

  /** The value of property `key` of an object, `undefined` when absent. */
  function Get(m: map<string, Json>, key: string): (r: Option<Json>)
    ensures r.Some? <==> key in m
    ensures r.Some? ==> r.value == m[key]
  {
    if key in m then Some(m[key]) else None
  }

  /** `getFilesOptions()`: nothing without a file list; otherwise the narrowing override. */
  function FilesOptions(files: Option<seq<string>>): (m: map<string, Json>)
    ensures files.None? ==> m == map[]
    ensures files.Some? ==> m.Keys == {"compilerOptions", "files", "include"}
  {
    match files
    case None => map[]
    case Some(fs) =>
      map[
        "compilerOptions" := JObject(map["skipLibCheck" := JBool(true)]),
        "files" := JArray(seq(|fs|, i requires 0 <= i < |fs| => JString(fs[i]))),
        "include" := JArray([])
      ]
  }

  /**
   * `{ ...base, ...filesOptions, compilerOptions: { ...base.compilerOptions, ...filesOptions.compilerOptions } }`.
   * Later spreads win on key conflicts, as the right operand of `+` does on maps.
   */
  function Merge(base: map<string, Json>, files: Option<seq<string>>): (r: map<string, Json>)
    ensures r.Keys == base.Keys + FilesOptions(files).Keys + {"compilerOptions"}
    ensures forall k :: k in base && k !in FilesOptions(files) && k != "compilerOptions" ==> r[k] == base[k]
    ensures r["compilerOptions"].JObject?
    // the options are the base's spread, with `skipLibCheck` forced on when files are given
    ensures files.None? ==> r["compilerOptions"].members == Spread(Get(base, "compilerOptions"))
    ensures files.Some? ==>
              r["compilerOptions"].members == Spread(Get(base, "compilerOptions"))["skipLibCheck" := JBool(true)]
  {
    var overrides := FilesOptions(files);
    var options := Spread(Get(base, "compilerOptions")) + Spread(Get(overrides, "compilerOptions"));
    OverrideOptions(Spread(Get(base, "compilerOptions")), files);
    (base + overrides)["compilerOptions" := JObject(options)]
  }

  /** Spreading the override's options over `options` only turns `skipLibCheck` on, and only when files are given. */
  lemma OverrideOptions(options: map<string, Json>, files: Option<seq<string>>)
    ensures files.None? ==> options + Spread(Get(FilesOptions(files), "compilerOptions")) == options
    ensures files.Some? ==>
              options + Spread(Get(FilesOptions(files), "compilerOptions")) == options["skipLibCheck" := JBool(true)]
  {
    var overrides := Spread(Get(FilesOptions(files), "compilerOptions"));
    if files.None? {
      assert overrides == map[];
    } else {
      assert overrides == map["skipLibCheck" := JBool(true)];
    }
  }

  /** With a file list, exactly those files are compiled, nothing is included by pattern, and library checking is skipped. */
  lemma MergeWithFiles(base: map<string, Json>, fs: seq<string>)
    ensures var merged := Merge(base, Some(fs));
            && merged.Keys == base.Keys + {"compilerOptions", "files", "include"}
            && merged["files"].JArray?
            && |merged["files"].items| == |fs|
            && (forall i :: 0 <= i < |fs| ==> merged["files"].items[i] == JString(fs[i]))
            && merged["include"] == JArray([])
            && merged["compilerOptions"].JObject?
            && "skipLibCheck" in merged["compilerOptions"].members
            && merged["compilerOptions"].members["skipLibCheck"] == JBool(true)
            && merged["compilerOptions"].members == Spread(Get(base, "compilerOptions"))["skipLibCheck" := JBool(true)]
  {
  }

  /** Every other top-level key keeps its base value. */
  lemma MergeKeepsOtherKeys(base: map<string, Json>, files: Option<seq<string>>, key: string)
    requires key in base && key != "compilerOptions"
    requires files.Some? ==> key != "files" && key != "include"
    ensures key in Merge(base, files) && Merge(base, files)[key] == base[key]
  {
  }

  /** Every base compiler option other than `skipLibCheck` keeps its value. */
  lemma MergeKeepsOtherOptions(base: map<string, Json>, files: Option<seq<string>>, option: string)
    requires "compilerOptions" in base && base["compilerOptions"].JObject?
    requires option in base["compilerOptions"].members && option != "skipLibCheck"
    ensures var options := Merge(base, files)["compilerOptions"].members;
            option in options && options[option] == base["compilerOptions"].members[option]
  {
  }

  /**
   * Without a file list the merge changes nothing, as long as the base's
   * `compilerOptions` is an object; otherwise it is replaced by what
   * spreading it copies (`{}` when the key is missing).
   */
  lemma MergeWithoutFiles(base: map<string, Json>)
    ensures Merge(base, None) == base["compilerOptions" := JObject(Spread(Get(base, "compilerOptions")))]
    ensures "compilerOptions" in base && base["compilerOptions"].JObject? ==> Merge(base, None) == base
    ensures "compilerOptions" !in base ==> Merge(base, None) == base["compilerOptions" := JObject(map[])]
  {
    var noOverrides: map<string, Json> := map[];
    assert FilesOptions(None) == noOverrides;
    assert base + noOverrides == base;
    var options := Spread(Get(base, "compilerOptions"));
    assert Spread(Get(noOverrides, "compilerOptions")) == map[];
    assert options + map[] == options;
  }
}

=== FILE: decimal.dfy ===
/** Rendering of non-negative integers as in a template literal `${n}`: plain decimal. */
module Decimal {

  predicate IsDigit(c: char) {
    '0' <= c <= '9'
  }

  predicate AllDigits(s: string) {
    forall i :: 0 <= i < |s| ==> IsDigit(s[i])
  }

  function DigitChar(d: nat): (c: char)
    requires d < 10
    ensures IsDigit(c) && c as int - '0' as int == d
  {
    ('0' as int + d) as char
  }

  /** The value a string of decimal digits denotes. */
  function Value(s: string): nat
    requires AllDigits(s)
  {
    if |s| == 0 then 0
    else Value(s[..|s| - 1]) * 10 + (s[|s| - 1] as int - '0' as int)
  }

  /** The shortest decimal spelling of `n`: digits only, no leading zero unless `n` is 0. */
  function FromNat(n: nat): (s: string)
    ensures |s| >= 1 && AllDigits(s)
    ensures s[0] == '0' ==> n == 0 && s == "0"
    ensures Value(s) == n
  {
    if n < 10 then [DigitChar(n)]
    else
      var s := FromNat(n / 10) + [DigitChar(n % 10)];
      assert s[..|s| - 1] == FromNat(n / 10);
      s
  }
}

=== FILE: diagnostics.dfy ===
/**
 * The full-program entry point (`src/index.ts`): read the configuration,
 * narrow it to the requested files, collect, sort and filter the
 * diagnostics, and turn each into a log annotation. The TypeScript compiler
 * is the opaque `Api`; `M` is its message-text type.
 */
module Diagnostics {
  import opened Wrappers
  import opened Seqs
  import opened JsString
  import Config

  /** A source file of the program. */
  datatype SourceFile = SourceFile(fileName: string, text: string)

  /** A diagnostic: optional owning file, optional offset into it, and (possibly chained) message text. */
  datatype Diagnostic<M> = Diagnostic(file: Option<SourceFile>, start: Option<nat>, messageText: M)

  /** A 0-based line and character. */
  datatype LineAndCharacter = LineAndCharacter(line: nat, character: nat)

  /** The parts of `parseJsonConfigFileContent`'s result the program is built from. */
  datatype ParsedConfig = ParsedConfig(fileNames: seq<string>, options: map<string, Config.Json>, projectReferences: seq<string>)

  /** What `readConfigFile` returns: the parsed object and, if reading failed, the error's message text. */
  datatype ConfigFile<M> = ConfigFile(config: map<string, Config.Json>, error: Option<M>)

  /** The compiler entry points the action calls, as opaque functions. */
  datatype Api<!M> = Api(
    parseConfig: map<string, Config.Json> -> ParsedConfig,                // parseJsonConfigFileContent
    semanticDiagnostics: ParsedConfig -> seq<Diagnostic<M>>,             // createProgram + getSemanticDiagnostics
    sortAndDeduplicate: seq<Diagnostic<M>> -> seq<Diagnostic<M>>,        // sortAndDeduplicateDiagnostics
    flatten: M -> string,                                                // flattenDiagnosticMessageText(_, '\n')
    lineAndCharacter: (SourceFile, nat) -> LineAndCharacter              // getLineAndCharacterOfPosition
  )

  /** A 1-based start position; `None` for `undefined`. */
  datatype Position = Position(startLine: Option<nat>, startColumn: Option<nat>)

  /** The arguments of one `core.error(message, { file, startLine, startColumn })` call. */
  datatype Annotation = Annotation(message: string, file: Option<string>, startLine: Option<nat>, startColumn: Option<nat>)

  /** `diagnostic.file?.fileName`. */
  function FileName<M>(d: Diagnostic<M>): (r: Option<string>)
    ensures r.Some? <==> d.file.Some?
    ensures r.Some? ==> r.value == d.file.value.fileName
  {
    match d.file
    case None => None
    case Some(f) => Some(f.fileName)
  }

  /**
   * The `filteredDiagnostics` predicate. `!diagnostic.file?.fileName` also
   * holds for an empty file name, so such a diagnostic passes like a file-less one.
   */
  predicate IsReported<M>(fileNames: seq<string>, d: Diagnostic<M>) {
    d.file.None? || d.file.value.fileName == "" || d.file.value.fileName in fileNames
  }

  /** The diagnostics kept for reporting, in their sorted order. */
  function Reported<M>(fileNames: seq<string>, ds: seq<Diagnostic<M>>): (r: seq<Diagnostic<M>>)
    ensures forall i :: 0 <= i < |r| ==> r[i].file.None? || r[i].file.value.fileName == "" || r[i].file.value.fileName in fileNames
  {
    Filter(d => IsReported(fileNames, d), ds)
  }

  /** A diagnostic without a file name, absent or empty, is always kept, whatever the root files are. */
  lemma UnnamedReported<M>(fileNames: seq<string>, ds: seq<Diagnostic<M>>, d: Diagnostic<M>)
    requires d in ds && (d.file.None? || d.file.value.fileName == "")
    ensures d in Reported(fileNames, ds)
  {
    FilterMembership(d => IsReported(fileNames, d), ds, d);
  }

  /** A diagnostic with a (non-empty) file name is kept iff the file is one of the configuration's root files. */
  lemma FileReportedIff<M>(fileNames: seq<string>, ds: seq<Diagnostic<M>>, d: Diagnostic<M>)
    requires d in ds && d.file.Some? && d.file.value.fileName != ""
    ensures d in Reported(fileNames, ds) <==> d.file.value.fileName in fileNames
    // a repeated diagnostic is kept once per occurrence, or not at all
    ensures multiset(Reported(fileNames, ds))[d]
            == if d.file.value.fileName in fileNames then multiset(ds)[d] else 0
  {
    FilterMembership(d => IsReported(fileNames, d), ds, d);
    FilterCount(d => IsReported(fileNames, d), ds, d);
  }

  /** Filtering only deletes: the output is a subsequence of the sorted diagnostics. */
  lemma ReportedInOrder<M>(fileNames: seq<string>, ds: seq<Diagnostic<M>>)
    ensures IsSubsequence(Reported(fileNames, ds), ds)
  {
    FilterIsSubsequence(d => IsReported(fileNames, d), ds);
  }

  /**
   * `getDiagnosticPosition()`. The guard is `!diagnostic.file || !diagnostic.start`,
   * so a diagnostic at offset 0 gets no position at all.
   */
  function DiagnosticPosition<M>(d: Diagnostic<M>, lineAndCharacter: (SourceFile, nat) -> LineAndCharacter): (p: Position)
    ensures p.startLine.Some? <==> p.startColumn.Some?
    ensures p.startLine.Some? <==> d.file.Some? && d.start.Some? && d.start.value != 0
    ensures p.startLine.Some? ==>
              var lc := lineAndCharacter(d.file.value, d.start.value);
              p.startLine.value == lc.line + 1 && p.startColumn.value == lc.character + 1
    ensures p.startLine.Some? ==> p.startLine.value >= 1 && p.startColumn.value >= 1
  {
    if d.file.None? || d.start.None? || d.start.value == 0 then Position(None, None)
    else
      var lc := lineAndCharacter(d.file.value, d.start.value);
      Position(Some(lc.line + 1), Some(lc.character + 1))
  }

  /** The annotation emitted for one diagnostic. */
  function Annotate<M>(api: Api<M>, d: Diagnostic<M>): (a: Annotation)
    ensures a.message == api.flatten(d.messageText)
    ensures a.file.Some? <==> d.file.Some?
    ensures a.file.Some? ==> a.file.value == d.file.value.fileName
    ensures a.startLine.Some? <==> a.startColumn.Some?
    ensures a.startLine.Some? <==> d.file.Some? && d.start.Some? && d.start.value != 0
    ensures a.startLine.Some? ==>
              var lc := api.lineAndCharacter(d.file.value, d.start.value);
              a.startLine.value == lc.line + 1 && a.startColumn.value == lc.character + 1
  {
    var p := DiagnosticPosition(d, api.lineAndCharacter);
    Annotation(api.flatten(d.messageText), FileName(d), p.startLine, p.startColumn)
  }

  /** The loop over the filtered diagnostics: one annotation each, in order. */
  function Annotations<M>(api: Api<M>, ds: seq<Diagnostic<M>>): (r: seq<Annotation>)
    ensures |r| == |ds|
    ensures forall i :: 0 <= i < |ds| ==> r[i] == Annotate(api, ds[i])
  {
    seq(|ds|, i requires 0 <= i < |ds| => Annotate(api, ds[i]))
  }

  /** The configuration the program is built from. */
  function Resolve<M>(api: Api<M>, json: ConfigFile<M>, files: Option<seq<string>>): ParsedConfig
  {
    api.parseConfig(Config.Merge(json.config, files))
  }

  /** `check(projectPath, files)`: the annotations, or the failure message of an unreadable configuration. */
  function Check<M>(api: Api<M>, json: ConfigFile<M>, files: Option<seq<string>>): (r: Result<seq<Annotation>, string>)
    ensures json.error.Some? <==> r.Failure?
    ensures r.Failure? ==> r.error == api.flatten(json.error.value)
    ensures r.Success? ==>
              var config := Resolve(api, json, files);
              var reported := Reported(config.fileNames, api.sortAndDeduplicate(api.semanticDiagnostics(config)));
              && |r.value| == |reported|
              && forall i :: 0 <= i < |reported| ==> r.value[i] == Annotate(api, reported[i])
  {
    if json.error.Some? then Failure(api.flatten(json.error.value))
    else
      var config := Resolve(api, json, files);
      var diagnostics := api.semanticDiagnostics(config);
      var sorted := api.sortAndDeduplicate(diagnostics);
      Success(Annotations(api, Reported(config.fileNames, sorted)))
  }

  /**
   * No annotation names a file outside the configuration's root files,
   * except annotations without a file (or with the empty file name).
   */
  lemma AnnotationsStayInRootFiles<M>(api: Api<M>, json: ConfigFile<M>, files: Option<seq<string>>)
    requires json.error.None?
    ensures var config := Resolve(api, json, files);
            forall a :: a in Check(api, json, files).value ==>
              a.file.None? || a.file.value == "" || a.file.value in config.fileNames
  {
  }

  /** The entry point always passes `files.split(' ')`, which is never `undefined`, so the override always applies. */
  function EntryFiles(input: string): (files: Option<seq<string>>)
    ensures files.Some? && Join(files.value, ' ') == input
    // the pieces between the spaces: at least one, none containing a space
    ensures |files.value| >= 1 && forall i :: 0 <= i < |files.value| ==> ' ' !in files.value[i]
  {
    Some(Split(input, ' '))
  }
}

=== FILE: jsstring.dfy ===
/**
 * The JavaScript string primitives the action relies on, over `seq<char>`:
 * the `\s` / `trim` whitespace class, `String.prototype.trim`,
 * `String.prototype.startsWith`, `split` on a one-character separator and
 * `Array.prototype.join` with a one-character separator.
 */
module JsString {

  /**
   * The characters ECMAScript counts as white space or line terminators:
   * what the regular-expression class `\s` matches and what `trim` removes.
   */
  predicate IsSpace(c: char) {
    || c == '\t' || c == '\n' || c == '\U{B}' || c == '\U{C}' || c == '\r' || c == ' '
    || c == '\U{A0}' || c == '\U{1680}'
    || ('\U{2000}' <= c <= '\U{200A}')
    || c == '\U{2028}' || c == '\U{2029}' || c == '\U{202F}' || c == '\U{205F}'
    || c == '\U{3000}' || c == '\U{FEFF}'
  }

  predicate AllSpace(s: string) {
    forall i :: 0 <= i < |s| ==> IsSpace(s[i])
  }

  /** `s.startsWith(p)`. */
  predicate StartsWith(s: string, p: string) {
    p <= s
  }

  /** `s.endsWith(p)`. */
  predicate EndsWith(s: string, p: string) {
    |p| <= |s| && s[|s| - |p|..] == p
  }

  /** The end of the run of white space in `s` that starts at `from`. */
  function LeadingSpaces(s: string, from: nat): (k: nat)
    requires from <= |s|
    ensures from <= k <= |s|
    ensures forall i :: from <= i < k ==> IsSpace(s[i])
    ensures k == |s| || !IsSpace(s[k])
    decreases |s| - from
  {
    if from < |s| && IsSpace(s[from]) then LeadingSpaces(s, from + 1) else from
  }

  /** The start of the run of white space in `s` that ends just before `upto`. */
  function TrailingSpaces(s: string, upto: nat): (k: nat)
    requires upto <= |s|
    ensures k <= upto
    ensures forall i :: k <= i < upto ==> IsSpace(s[i])
    ensures k == 0 || !IsSpace(s[k - 1])
    decreases upto
  {
    if upto > 0 && IsSpace(s[upto - 1]) then TrailingSpaces(s, upto - 1) else upto
  }

  /** `s.trim()`: `s` without its leading and trailing white space. */
  function Trim(s: string): (r: string)
    ensures |r| <= |s|
    ensures |r| == 0 || (!IsSpace(r[0]) && !IsSpace(r[|r| - 1]))
    // `r` is the infix of `s` after its leading white space; only white space follows it
    ensures var k := LeadingSpaces(s, 0);
            && k + |r| <= |s| && r == s[k..k + |r|]
            && AllSpace(s[..k]) && AllSpace(s[k + |r|..])
    ensures |r| == 0 <==> AllSpace(s)
  {
    var a := LeadingSpaces(s, 0);
    if a == |s| then
      assert s[..a] == s;
      ""
    else
      var b := TrailingSpaces(s, |s|);
      assert !IsSpace(s[a]);
      s[a..b]
  }

  /** Trimming cannot introduce a character: everything in `Trim(s)` occurs in `s`. */
  lemma TrimSubset(s: string, c: char)
    requires c in Trim(s)
    ensures c in s
  {
    var r, k := Trim(s), LeadingSpaces(s, 0);
    var i :| 0 <= i < |r| && r[i] == c;
    assert s[k + i] == c;
  }

  /** A string without white space at either end is its own trim. */
  lemma TrimUnchanged(s: string)
    requires |s| == 0 || (!IsSpace(s[0]) && !IsSpace(s[|s| - 1]))
    ensures Trim(s) == s
  {
    if |s| > 0 {
      assert LeadingSpaces(s, 0) == 0;
      assert TrailingSpaces(s, |s|) == |s|;
      assert s[0..|s|] == s;
    }
  }

  /** One white-space character in front of an already trimmed string is trimmed away. */
  lemma TrimSpaceBefore(c: char, s: string)
    requires IsSpace(c)
    requires |s| > 0 && !IsSpace(s[0]) && !IsSpace(s[|s| - 1])
    ensures Trim([c] + s) == s
  {
    var t := [c] + s;
    assert t[1] == s[0];
    assert LeadingSpaces(t, 1) == 1;
    assert TrailingSpaces(t, |t|) == |t|;
    assert t[1..|t|] == s;
  }

  /** Trimming is idempotent. */
  lemma TrimIdempotent(s: string)
    ensures Trim(Trim(s)) == Trim(s)
  {
    TrimUnchanged(Trim(s));
  }

  /**
   * `ps.join([sep])`: the pieces with one separator between neighbours; the
   * empty array joins to the empty string.
   */
  function Join(ps: seq<string>, sep: char): string
  {
    if |ps| == 0 then ""
    else if |ps| == 1 then ps[0]
    else ps[0] + [sep] + Join(ps[1..], sep)
  }

  /**
   * `s.split(sep)` for a one-character separator: the maximal separator-free
   * pieces of `s`, always at least one (the empty string splits to `[""]`).
   */
  function Split(s: string, sep: char): (r: seq<string>)
    ensures |r| >= 1
    ensures forall i :: 0 <= i < |r| ==> sep !in r[i]
    ensures Join(r, sep) == s
  {
    if |s| == 0 then [""]
    else if s[0] == sep then
      var t := Split(s[1..], sep);
      assert [sep] + s[1..] == s;
      [""] + t
    else
      var t := Split(s[1..], sep);
      var r := [[s[0]] + t[0]] + t[1..];
      assert r[1..] == t[1..];
      assert [s[0]] + s[1..] == s;
      r
  }

  /** Splitting undoes joining: a separator-free, non-empty list of pieces is recovered exactly. */
  lemma {:induction false} SplitJoin(ps: seq<string>, sep: char)
    requires |ps| >= 1
    requires forall i :: 0 <= i < |ps| ==> sep !in ps[i]
    ensures Split(Join(ps, sep), sep) == ps
    decreases |ps|, |ps[0]|
  {
    var s := Join(ps, sep);
    if |ps[0]| == 0 {
      if |ps| == 1 {
        assert s == "";
      } else {
        SplitJoin(ps[1..], sep);
        assert s == [sep] + Join(ps[1..], sep);
        assert s[1..] == Join(ps[1..], sep);
        assert [""] + ps[1..] == ps;
      }
    } else {
      var c := ps[0][0];
      var qs := [ps[0][1..]] + ps[1..];
      assert qs[1..] == ps[1..];
      assert forall i :: 0 <= i < |qs| ==> sep !in qs[i] by {
        forall i | 0 <= i < |qs| ensures sep !in qs[i] {
          if i == 0 {
            assert forall k :: 0 <= k < |ps[0][1..]| ==> ps[0][1..][k] == ps[0][k + 1];
          }
        }
      }
      SplitJoin(qs, sep);
      JoinDropFirst(ps, sep);
      assert s[0] == c && c != sep;
      var t := Split(s[1..], sep);
      assert t == qs;
      assert [c] + ps[0][1..] == ps[0];
      assert [[c] + t[0]] + t[1..] == ps;
    }
  }

  /** Joining two non-empty lists puts exactly one separator between their joins. */
  lemma {:induction false} JoinAppend(a: seq<string>, b: seq<string>, sep: char)
    requires |a| >= 1 && |b| >= 1
    ensures Join(a + b, sep) == Join(a, sep) + [sep] + Join(b, sep)
    decreases |a|
  {
    if |a| == 1 {
      assert (a + b)[1..] == b;
    } else {
      assert (a + b)[1..] == a[1..] + b;
      JoinAppend(a[1..], b, sep);
    }
  }

  /** Dropping the first character of a non-empty first piece drops the first character of the join. */
  lemma JoinDropFirst(ps: seq<string>, sep: char)
    requires |ps| >= 1 && |ps[0]| > 0
    ensures |Join(ps, sep)| > 0 && Join(ps, sep)[0] == ps[0][0]
    ensures Join(ps, sep)[1..] == Join([ps[0][1..]] + ps[1..], sep)
  {
    var qs := [ps[0][1..]] + ps[1..];
    assert qs[0] == ps[0][1..] && qs[1..] == ps[1..];
    var rest := if |ps| == 1 then "" else [sep] + Join(ps[1..], sep);
    assert Join(ps, sep) == ps[0] + rest;
    assert Join(qs, sep) == ps[0][1..] + rest;
    DropFirstOfConcat(ps[0], rest);
  }

  lemma DropFirstOfConcat(a: string, b: string)
    requires |a| > 0
    ensures (a + b)[0] == a[0] && (a + b)[1..] == a[1..] + b
  {
  }

  /** The number of pieces of a split is one more than the number of separators. */
  lemma {:induction false} SplitCount(s: string, sep: char)
    ensures |Split(s, sep)| == multiset(s)[sep] + 1
  {
    if |s| > 0 {
      SplitCount(s[1..], sep);
      SplitStep(s, sep);
      CountStep(s, sep);
    }
  }

  /** A leading separator starts a new piece; any other first character extends the first piece. */
  lemma SplitStep(s: string, sep: char)
    requires |s| > 0
    ensures |Split(s, sep)| == |Split(s[1..], sep)| + (if s[0] == sep then 1 else 0)
  {
    if s[0] == sep {
      assert Split(s, sep) == [""] + Split(s[1..], sep);
    } else {
      var t := Split(s[1..], sep);
      assert Split(s, sep) == [[s[0]] + t[0]] + t[1..];
    }
  }

  /** The first character adds one to its own count. */
  lemma CountStep(s: string, c: char)
    requires |s| > 0
    ensures multiset(s)[c] == multiset(s[1..])[c] + (if s[0] == c then 1 else 0)
  {
    assert s == [s[0]] + s[1..];
    assert multiset(s) == multiset{s[0]} + multiset(s[1..]);
  }

  /** A string without the separator splits to itself alone. */
  lemma SplitNoSeparator(s: string, sep: char)
    requires sep !in s
    ensures Split(s, sep) == [s]
  {
    SplitJoin([s], sep);
  }

  /** A join of at least three pieces starts with the first two, each followed by the separator. */
  lemma JoinStart(ps: seq<string>, sep: char)
    requires |ps| >= 3
    ensures StartsWith(Join(ps, sep), ps[0] + [sep] + ps[1] + [sep])
  {
    assert Join(ps, sep) == ps[0] + [sep] + Join(ps[1..], sep);
    assert Join(ps[1..], sep) == ps[1] + [sep] + Join(ps[2..], sep);
  }

  /** ... and ends with the separator followed by the last piece. */
  lemma JoinEnd(ps: seq<string>, sep: char)
    requires |ps| >= 2
    ensures EndsWith(Join(ps, sep), [sep] + ps[|ps| - 1])
  {
    var init, last := ps[..|ps| - 1], ps[|ps| - 1];
    assert init + [last] == ps;
    JoinAppend(init, [last], sep);
    assert Join([last], sep) == last;
    assert Join(ps, sep) == Join(init, sep) + ([sep] + last);
    EndsWithConcat(Join(init, sep), [sep] + last);
  }

  lemma EndsWithConcat(a: string, b: string)
    ensures EndsWith(a + b, b)
  {
    assert (a + b)[|a|..] == b;
  }

  lemma Reassociate<T>(a: seq<T>, b: seq<T>, c: seq<T>)
    ensures a + b + c == a + (b + c)
  {
  }

  /** Joining a sub-list first and then the whole is the same as joining the flattened list. */
  lemma JoinFlatten(a: seq<string>, b: seq<string>, c: seq<string>, sep: char)
    requires |a| >= 1 && |b| >= 1 && |c| >= 1
    ensures Join(a + [Join(b, sep)] + c, sep) == Join(a + b + c, sep)
  {
    var x := Join(b, sep);
    var xc := [x] + c;
    var bc := b + c;
    Reassociate(a, [x], c);
    Reassociate(a, b, c);
    JoinAppend([x], c, sep);
    JoinAppend(b, c, sep);
    JoinAppend(a, xc, sep);
    JoinAppend(a, bc, sep);
  }
}

=== FILE: pullrequest.dfy ===
/**
 * The `check` body of the pull-request entry point (`src/main.ts`): the
 * gating on the pull-request number and on the exit status of `tsc-files`,
 * around the report rendering. The subprocess is a function parameter and
 * the Actions runtime calls (`setFailed`, posting the comment) are the
 * returned outcome.
 */
module PullRequest {
  import opened Wrappers
  import opened JsString
  import Report

  /** What the workflow run knows about its trigger. */
  datatype Context = Context(owner: string, repo: string, prNumber: Option<nat>)

  /** A subprocess invocation: the command and its argument vector. */
  datatype Invocation = Invocation(command: string, args: seq<string>)

  /**
   * What `spawnSync` reports: either its `error` field is set (the command
   * could not be launched, or its output exceeded the `maxBuffer` limit),
   * or an exit status (null when killed by a signal) and the captured output.
   */
  datatype SpawnResult =
    | Errored(error: string)
    | Exited(status: Option<int>, stdout: string, stderr: string)

  /** Why a run fails. */
  datatype Failure =
    | NotInPullRequest
    | SpawnError(error: string)
    | UnexpectedExit(status: Option<int>, stdout: string, stderr: string, files: seq<string>)

  /** The failure text of the cases whose message is a plain string. */
  function Message(f: Failure): (m: string)
    requires !f.UnexpectedExit?
    ensures f.NotInPullRequest? ==> m == "Not in PR"
  {
    match f
    case NotInPullRequest => "Not in PR"
    case SpawnError(e) => e
  }

  /** The comment posted on the pull request (`issues.createComment`). */
  datatype Comment = Comment(owner: string, repo: string, issueNumber: nat, body: string)

  /** The observable result of a run: a failure, a quiet success, or a posted comment. */
  datatype Outcome = Failed(failure: Failure) | NoComment | Commented(comment: Comment)

  /** The outcome, together with the subprocess invocation if one was made. */
  datatype Run = Run(invocation: Option<Invocation>, outcome: Outcome)

  /** `!prNumber` is false: the run belongs to a pull request with a non-zero number. */
  predicate InPullRequest(ctx: Context) {
    ctx.prNumber.Some? && ctx.prNumber.value != 0
  }

  /** `yarn --silent tsc-files --noEmit ...files`. */
  function TscFiles(files: seq<string>): (inv: Invocation)
    ensures inv.command == "yarn" && |inv.args| == 3 + |files| && inv.args[3..] == files
    ensures inv.args[..3] == ["--silent", "tsc-files", "--noEmit"]
  {
    Invocation("yarn", ["--silent", "tsc-files", "--noEmit"] + files)
  }

  /** The comment a run with status 2 posts. */
  function ReportComment(ctx: Context, prNumber: nat, stdout: string, files: seq<string>): (c: Comment)
    ensures c.owner == ctx.owner && c.repo == ctx.repo && c.issueNumber == prNumber
    ensures StartsWith(c.body, "<details>\n<summary>\n") && EndsWith(c.body, "\n</details>")
  {
    var baseUrl := Report.BaseUrl(ctx.owner, ctx.repo);
    var locations := Report.Locations(baseUrl, stdout, files);
    Comment(ctx.owner, ctx.repo, prNumber, Report.CommentBody(baseUrl, prNumber, locations))
  }

  /** One run of the pull-request check for the requested `files`, with `spawn` standing for `spawnSync`. */
  function Check(ctx: Context, files: seq<string>, spawn: Invocation -> SpawnResult): (r: Run)
    // no pull request: fail before anything is spawned
    ensures r.invocation.None? <==> !InPullRequest(ctx)
    ensures !InPullRequest(ctx) ==> r.outcome == Failed(NotInPullRequest)
    ensures InPullRequest(ctx) ==> r.invocation == Some(TscFiles(files))
    // the exit status decides the rest
    ensures r.outcome.NoComment?
        <==> InPullRequest(ctx) && spawn(TscFiles(files)).Exited? && spawn(TscFiles(files)).status == Some(0)
    ensures r.outcome.Commented?
        <==> InPullRequest(ctx) && spawn(TscFiles(files)).Exited? && spawn(TscFiles(files)).status == Some(2)
    ensures r.outcome.Failed? && r.outcome.failure.SpawnError?
        <==> InPullRequest(ctx) && spawn(TscFiles(files)).Errored?
    ensures r.outcome.Failed? && r.outcome.failure.UnexpectedExit?
        <==> InPullRequest(ctx) && spawn(TscFiles(files)).Exited?
             && spawn(TscFiles(files)).status != Some(0) && spawn(TscFiles(files)).status != Some(2)
    // a comment goes to the run's own pull request and repository
    ensures r.outcome.Commented? ==>
              && r.outcome.comment.owner == ctx.owner && r.outcome.comment.repo == ctx.repo
              && r.outcome.comment.issueNumber == ctx.prNumber.value
              && StartsWith(r.outcome.comment.body, "<details>\n<summary>\n")
              && EndsWith(r.outcome.comment.body, "\n</details>")
    // the comment reports the locations of the output it was given
    ensures r.outcome.Commented? ==>
              var baseUrl := Report.BaseUrl(ctx.owner, ctx.repo);
              r.outcome.comment.body
              == Report.CommentBody(baseUrl, ctx.prNumber.value, Report.Locations(baseUrl, spawn(TscFiles(files)).stdout, files))
    // the failures carry what `setFailed` is given
    ensures r.outcome.Failed? && r.outcome.failure.SpawnError? ==>
              r.outcome.failure.error == spawn(TscFiles(files)).error
    ensures r.outcome.Failed? && r.outcome.failure.UnexpectedExit? ==>
              var result := spawn(TscFiles(files));
              r.outcome.failure == UnexpectedExit(result.status, result.stdout, result.stderr, files)
  {
    if !InPullRequest(ctx) then Run(None, Failed(NotInPullRequest))
    else
      var prNumber := ctx.prNumber.value;
      var invocation := TscFiles(files);
      var outcome :=
        match spawn(invocation)
        case Errored(e) => Failed(SpawnError(e))
        case Exited(status, stdout, stderr) =>
          if status == Some(0) then NoComment
          else if status != Some(2) then Failed(UnexpectedExit(status, stdout, stderr, files))
          else Commented(ReportComment(ctx, prNumber, stdout, files));
      Run(Some(invocation), outcome)
  }

  /** The requested files as the entry point passes them: the `files` input split on spaces. */
  function RequestedFiles(input: string): (files: seq<string>)
    ensures |files| >= 1 && Join(files, ' ') == input
    ensures forall i :: 0 <= i < |files| ==> ' ' !in files[i]
  {
    Split(input, ' ')
  }

  /** An empty `files` input requests the single empty path, which every line starts with. */
  lemma EmptyInputRequestsEverything(line: string)
    ensures RequestedFiles("") == [""]
    ensures Report.IsReported(RequestedFiles(""), line) <==> !Report.IsIndented(line)
  {
    Report.EmptyFileMatchesAll([""], line);
  }

  /** Empty output keeps no line unless the empty path is requested. */
  lemma NothingKeptFromEmptyOutput(files: seq<string>)
    requires forall f :: f in files ==> f != ""
    ensures Report.ReportedLines("", files) == []
  {
    assert Trim("") == "";
    assert Split("", '\n') == [""];
    assert !Report.IsReported(files, "");
  }

  /**
   * There is no check for an empty report: status 2 with no surviving line
   * still posts a comment, whose table has no rows.
   */
  lemma EmptyReportStillPosts(ctx: Context, files: seq<string>, spawn: Invocation -> SpawnResult, stderr: string)
    requires InPullRequest(ctx)
    requires spawn(TscFiles(files)) == Exited(Some(2), "", stderr)
    requires forall f :: f in files ==> f != ""
    ensures Check(ctx, files, spawn).outcome.Commented?
    ensures var baseUrl := Report.BaseUrl(ctx.owner, ctx.repo);
            Check(ctx, files, spawn).outcome.comment.body == Report.CommentBody(baseUrl, ctx.prNumber.value, [])
  {
    var baseUrl := Report.BaseUrl(ctx.owner, ctx.repo);
    NothingKeptFromEmptyOutput(files);
    assert Report.Locations(baseUrl, "", files) == [];
  }

  /**
   * The comment posted for status 2, line by line: the `<details>` frame,
   * the summary line, the table header, then one row per kept output line
   * (an empty line when none is kept), then `</details>`.
   */
  lemma PostedCommentLines(ctx: Context, files: seq<string>, spawn: Invocation -> SpawnResult)
    requires InPullRequest(ctx)
    requires spawn(TscFiles(files)).Exited? && spawn(TscFiles(files)).status == Some(2)
    requires Report.NoNewline(ctx.owner) && Report.NoNewline(ctx.repo)
    ensures var baseUrl := Report.BaseUrl(ctx.owner, ctx.repo);
            var stdout := spawn(TscFiles(files)).stdout;
            var locations := Report.Locations(baseUrl, stdout, files);
            && |locations| == |Report.ReportedLines(stdout, files)|
            && Split(Check(ctx, files, spawn).outcome.comment.body, '\n')
               == ["<details>", "<summary>", Report.Summary(baseUrl, ctx.prNumber.value, locations), "</summary>", "<br>"]
                  + Report.Header
                  + (if |locations| == 0 then [""] else Report.TableRows(locations))
                  + ["</details>"]
  {
    var baseUrl := Report.BaseUrl(ctx.owner, ctx.repo);
    Report.ConcatNoNewline("https://github.com/", ctx.owner);
    Report.ConcatNoNewline("https://github.com/" + ctx.owner, "/");
    Report.ConcatNoNewline("https://github.com/" + ctx.owner + "/", ctx.repo);
    var locations := Report.Locations(baseUrl, spawn(TscFiles(files)).stdout, files);
    Report.CommentBodyLines(baseUrl, ctx.prNumber.value, locations);
  }
}

=== FILE: report.dfy ===
/**
 * The text processing of the pull-request entry point (`src/main.ts`): from
 * the raw standard output of `tsc-files` to the markdown comment posted on
 * the pull request.
 */
module Report {
  import opened Wrappers
  import opened JsString
  import opened Seqs
  import Decimal
  import Uri

  /** One reported error: where it is, a link to that place and the error text. */
  datatype Location = Location(location: string, url: string, error: string)

  /** `https://github.com/<owner>/<repo>`. */
  function BaseUrl(owner: string, repo: string): (r: string)
    ensures StartsWith(r, "https://github.com/" + owner + "/")
    ensures r[|"https://github.com/" + owner + "/"|..] == repo
  {
    "https://github.com/" + owner + "/" + repo
  }

  // ---------------------------------------------------------------------
  // Line filter

  /** `/^\s+/` matches the line. */
  predicate IsIndented(line: string) {
    |line| > 0 && IsSpace(line[0])
  }

  /** The filter on output lines: not indented, and starting with some requested file. */
  predicate IsReported(files: seq<string>, line: string) {
    !IsIndented(line) && exists f :: f in files && StartsWith(line, f)
  }

  /** The lines of the trimmed output that survive the filter, in output order. */
  function ReportedLines(stdout: string, files: seq<string>): (r: seq<string>)
    ensures forall i :: 0 <= i < |r| ==> NoNewline(r[i]) && IsReported(files, r[i])
  {
    var lines := Split(Trim(stdout), '\n');
    var r := Filter(line => IsReported(files, line), lines);
    forall i | 0 <= i < |r| ensures NoNewline(r[i]) {
      assert r[i] in r;
      assert r[i] in lines;
      var j :| 0 <= j < |lines| && lines[j] == r[i];
    }
    r
  }

  /** A line is kept iff it is a line of the trimmed output, is not indented and starts with a requested file. */
  lemma ReportedLinesMembership(stdout: string, files: seq<string>, line: string)
    ensures line in ReportedLines(stdout, files)
        <==> line in Split(Trim(stdout), '\n') && !IsIndented(line) && exists f :: f in files && StartsWith(line, f)
    // a repeated line is reported once per occurrence
    ensures multiset(ReportedLines(stdout, files))[line]
            == if IsReported(files, line) then multiset(Split(Trim(stdout), '\n'))[line] else 0
  {
    FilterMembership(line => IsReported(files, line), Split(Trim(stdout), '\n'), line);
    FilterCount(line => IsReported(files, line), Split(Trim(stdout), '\n'), line);
  }

  /** The kept lines keep their output order. */
  lemma ReportedLinesInOrder(stdout: string, files: seq<string>)
    ensures IsSubsequence(ReportedLines(stdout, files), Split(Trim(stdout), '\n'))
  {
    FilterIsSubsequence(line => IsReported(files, line), Split(Trim(stdout), '\n'));
  }

  /**
   * An empty requested file (what splitting an empty `files` input on spaces
   * yields) lets every non-indented line through, since every string starts with "".
   */
  lemma EmptyFileMatchesAll(files: seq<string>, line: string)
    requires "" in files
    ensures IsReported(files, line) <==> !IsIndented(line)
  {
    assert StartsWith(line, "");
  }

  // ---------------------------------------------------------------------
  // Location split

  /**
   * `const [location, ...rest] = line.split(':')` and `rest.join(':')`: the
   * text before the first colon (the whole line when there is none) and the
   * text after it.
   */
  function SplitAtColon(line: string): (r: (string, string))
    ensures ':' !in r.0
    ensures ':' in line ==> r.0 + ":" + r.1 == line
    ensures ':' !in line ==> r == (line, "")
  {
    var pieces := Split(line, ':');
    var rest := Join(pieces[1..], ':');
    if |pieces| == 1 then
      (pieces[0], rest)
    else
      JoinAppend([pieces[0]], pieces[1..], ':');
      assert [pieces[0]] + pieces[1..] == pieces;
      assert line == pieces[0] + ":" + rest;
      assert line[|pieces[0]|] == ':';
      (pieces[0], rest)
  }

  /** The location and the error text `rest.join(':').trim()` of one output line. */
  function SplitLocation(line: string): (r: (string, string))
    ensures ':' !in r.0 && StartsWith(line, r.0)
    // the location ends at the first colon; the error is the trimmed text after it
    ensures ':' in line ==> |r.0| < |line| && line[|r.0|] == ':' && r.1 == Trim(line[|r.0| + 1..])
    ensures ':' !in line ==> r == (line, "")
  {
    var (location, rest) := SplitAtColon(line);
    if ':' in line then
      assert line == location + (":" + rest);
      assert line[|location| + 1..] == rest;
      (location, Trim(rest))
    else
      (location, Trim(rest))
  }

  /** The error text is the line's text after the location, so it cannot contain a newline the line lacks. */
  lemma SplitLocationNoNewline(line: string)
    ensures '\n' !in line ==> '\n' !in SplitLocation(line).0 && '\n' !in SplitLocation(line).1
  {
    var (location, rest) := SplitAtColon(line);
    if ':' in line && '\n' !in line {
      assert line == location + ":" + rest;
      assert '\n' !in rest;
      if '\n' in Trim(rest) {
        TrimSubset(rest, '\n');
      }
    }
  }

  // ---------------------------------------------------------------------
  // `(line,col)` rewrite

  /** `loc` is `prefix(line,col)` with `line` and `col` non-empty digit strings. */
  predicate IsPositionForm(loc: string, prefix: string, line: string, col: string) {
    && |line| > 0 && Decimal.AllDigits(line)
    && |col| > 0 && Decimal.AllDigits(col)
    && loc == prefix + "(" + line + "," + col + ")"
  }

  /** `loc` matches `/\(([0-9]+),[0-9]+\)$/`. */
  ghost predicate EndsWithPosition(loc: string) {
    exists prefix, line, col :: IsPositionForm(loc, prefix, line, col)
  }

  /** The start of the longest run of digits ending just before index `end`. */
  function DigitRunStart(s: string, end: nat): (k: nat)
    requires end <= |s|
    ensures k <= end
    ensures forall i :: k <= i < end ==> Decimal.IsDigit(s[i])
    ensures k == 0 || !Decimal.IsDigit(s[k - 1])
    decreases end
  {
    if end > 0 && Decimal.IsDigit(s[end - 1]) then DigitRunStart(s, end - 1) else end
  }

  /** Matches the trailing `(line,col)` of `loc` from the right; yields the text before it and the line digits. */
  function MatchPosition(loc: string): (r: Option<(string, string)>)
  {
    var n := |loc|;
    if n == 0 || loc[n - 1] != ')' then None
    else
      var j := DigitRunStart(loc, n - 1);
      if j == n - 1 || j == 0 || loc[j - 1] != ',' then None
      else
        var i := DigitRunStart(loc, j - 1);
        if i == j - 1 || i == 0 || loc[i - 1] != '(' then None
        else Some((loc[..i - 1], loc[i..j - 1]))
  }

  /** `location.replace(/\(([0-9]+),[0-9]+\)$/, (_, l) => `#L${l}`)`. */
  function GithubPath(location: string): (r: string)
    // a trailing `(line,col)` becomes `#L<line>`
    ensures forall prefix, line, col :: IsPositionForm(location, prefix, line, col) ==> r == prefix + "#L" + line
    // anything else is left alone
    ensures !EndsWithPosition(location) ==> r == location
    // the rewrite only shortens and adds no line break
    ensures |r| <= |location| && (NoNewline(location) ==> NoNewline(r))
  {
    MatchPositionExact(location);
    match MatchPosition(location)
    case None => location
    case Some((prefix, line)) =>
      RewriteShortens(location);
      prefix + "#L" + line
  }

  /** The matcher finds exactly the `prefix(line,col)` forms. */
  lemma MatchPositionExact(loc: string)
    ensures forall prefix, line, col :: IsPositionForm(loc, prefix, line, col) ==> MatchPosition(loc) == Some((prefix, line))
    ensures !EndsWithPosition(loc) ==> MatchPosition(loc).None?
  {
    forall prefix, line, col | IsPositionForm(loc, prefix, line, col)
      ensures MatchPosition(loc) == Some((prefix, line))
    {
      MatchPositionComplete(loc, prefix, line, col);
    }
    if MatchPosition(loc).Some? {
      MatchPositionSound(loc);
    }
  }

  /** `prefix#L<line>` is shorter than `prefix(line,col)` and has no line break the location lacks. */
  lemma RewriteShortens(loc: string)
    requires MatchPosition(loc).Some?
    ensures var (prefix, line) := MatchPosition(loc).value;
            && |prefix + "#L" + line| <= |loc|
            && (NoNewline(loc) ==> NoNewline(prefix + "#L" + line))
  {
    var n := |loc|;
    var j := DigitRunStart(loc, n - 1);
    var i := DigitRunStart(loc, j - 1);
    var prefix, line := loc[..i - 1], loc[i..j - 1];
    assert MatchPosition(loc).value == (prefix, line);
    if NoNewline(loc) {
      assert forall k :: 0 <= k < |prefix| ==> prefix[k] == loc[k];
      assert forall k :: 0 <= k < |line| ==> line[k] == loc[i + k];
      ConcatNoNewline(prefix, "#L");
      ConcatNoNewline(prefix + "#L", line);
    }
  }

  /** When the matcher succeeds, the location really has the `(line,col)` form it reports. */
  lemma MatchPositionSound(loc: string)
    requires MatchPosition(loc).Some?
    ensures exists col :: IsPositionForm(loc, MatchPosition(loc).value.0, MatchPosition(loc).value.1, col)
  {
    var n := |loc|;
    var j := DigitRunStart(loc, n - 1);
    var i := DigitRunStart(loc, j - 1);
    var prefix, line, col := loc[..i - 1], loc[i..j - 1], loc[j..n - 1];
    assert Decimal.AllDigits(line);
    assert Decimal.AllDigits(col);
    PositionSlices(loc, i, j);
    assert IsPositionForm(loc, prefix, line, col);
  }

  /** Cutting `loc` at the three delimiters of a trailing `(line,col)` and gluing the parts back gives `loc`. */
  lemma PositionSlices(loc: string, i: nat, j: nat)
    requires 0 < i < j < |loc| && loc[i - 1] == '(' && loc[j - 1] == ',' && loc[|loc| - 1] == ')'
    ensures loc == loc[..i - 1] + "(" + loc[i..j - 1] + "," + loc[j..|loc| - 1] + ")"
  {
    var n := |loc|;
    assert loc == loc[..i - 1] + loc[i - 1..i] + loc[i..j - 1] + loc[j - 1..j] + loc[j..n - 1] + loc[n - 1..];
    assert loc[i - 1..i] == "(" && loc[j - 1..j] == "," && loc[n - 1..] == ")";
  }

  /** A digit run preceded by a non-digit is found exactly. */
  lemma {:induction false} DigitRunExact(s: string, start: nat, end: nat)
    requires 0 < start <= end <= |s| && !Decimal.IsDigit(s[start - 1])
    requires Decimal.AllDigits(s[start..end])
    ensures DigitRunStart(s, end) == start
    decreases end
  {
    if end > start {
      assert s[end - 1] == s[start..end][end - 1 - start];
      assert s[start..end - 1] == s[start..end][..end - 1 - start];
      DigitRunExact(s, start, end - 1);
    }
  }

  /** Where the parts of `prefix(line,col)` sit. */
  lemma PositionFormLayout(loc: string, prefix: string, line: string, col: string)
    requires IsPositionForm(loc, prefix, line, col)
    ensures var p, n := |prefix|, |loc|;
            var j := p + |line| + 2;
            && n == j + |col| + 1
            && loc[..p] == prefix && loc[p] == '('
            && loc[p + 1..j - 1] == line && loc[j - 1] == ','
            && loc[j..n - 1] == col && loc[n - 1] == ')'
  {
  }

  /** A location of the form `prefix(line,col)` is matched with exactly that prefix and line. */
  lemma MatchPositionComplete(loc: string, prefix: string, line: string, col: string)
    requires IsPositionForm(loc, prefix, line, col)
    ensures MatchPosition(loc) == Some((prefix, line))
  {
    PositionFormLayout(loc, prefix, line, col);
    var n := |loc|;
    var j := |prefix| + |line| + 2;
    var i := |prefix| + 1;
    DigitRunExact(loc, j, n - 1);
    DigitRunExact(loc, i, j - 1);
  }

  // ---------------------------------------------------------------------
  // Locations

  /** The blob URL of a location on the hard-coded `main` branch. */
  function Url(baseUrl: string, location: string): (r: string)
    ensures StartsWith(r, baseUrl + "/tree/main/")
    ensures forall prefix, line, col :: IsPositionForm(location, prefix, line, col) ==>
              r == baseUrl + "/tree/main/" + prefix + "#L" + line
    ensures !EndsWithPosition(location) ==> r == baseUrl + "/tree/main/" + location
    ensures NoNewline(baseUrl) && NoNewline(location) ==> NoNewline(r)
  {
    TreePath(baseUrl, location);
    baseUrl + "/tree/main/" + GithubPath(location)
  }

  lemma TreePath(baseUrl: string, location: string)
    ensures forall prefix, line, col :: IsPositionForm(location, prefix, line, col) ==>
              baseUrl + "/tree/main/" + GithubPath(location) == baseUrl + "/tree/main/" + prefix + "#L" + line
    ensures NoNewline(baseUrl) && NoNewline(location) ==> NoNewline(baseUrl + "/tree/main/" + GithubPath(location))
  {
    forall prefix, line, col | IsPositionForm(location, prefix, line, col)
      ensures baseUrl + "/tree/main/" + GithubPath(location) == baseUrl + "/tree/main/" + prefix + "#L" + line
    {
      Regroup(baseUrl, "/tree/main/", prefix, "#L", line);
    }
    if NoNewline(baseUrl) && NoNewline(location) {
      ConcatNoNewline(baseUrl, "/tree/main/");
      ConcatNoNewline(baseUrl + "/tree/main/", GithubPath(location));
    }
  }

  /** One entry of `locations`: the split of an output line and the link to its location. */
  function ToLocation(baseUrl: string, line: string): (r: Location)
    ensures ':' !in r.location && StartsWith(line, r.location)
    ensures ':' in line ==> |r.location| < |line| && line[|r.location|] == ':' && r.error == Trim(line[|r.location| + 1..])
    ensures ':' !in line ==> r.location == line && r.error == ""
    ensures r.url == Url(baseUrl, r.location)
    ensures NoNewline(line) ==> NoNewline(r.location) && NoNewline(r.error)
  {
    var (location, error) := SplitLocation(line);
    SplitLocationNoNewline(line);
    Location(location, Url(baseUrl, location), error)
  }

  /** The `locations` array: one entry per kept output line, in order. */
  function Locations(baseUrl: string, stdout: string, files: seq<string>): (r: seq<Location>)
    ensures var lines := ReportedLines(stdout, files);
            && |r| == |lines|
            && forall i :: 0 <= i < |r| ==>
                 && (r[i].location, r[i].error) == SplitLocation(lines[i])
                 && r[i].url == Url(baseUrl, r[i].location)
    ensures NoNewline(baseUrl) ==> LocationsOnOneLine(r)
  {
    var lines := ReportedLines(stdout, files);
    seq(|lines|, i requires 0 <= i < |lines| => ToLocation(baseUrl, lines[i]))
  }

  /** Splitting `head + [sep] + rest` with a separator-free `head` puts `head` first and `rest` after it. */
  lemma {:induction false} SplitAtFirst(head: string, sep: char, rest: string)
    requires sep !in head
    ensures var pieces := Split(head + [sep] + rest, sep);
            pieces[0] == head && Join(pieces[1..], sep) == rest
  {
    var s := head + [sep] + rest;
    if |head| == 0 {
      assert s == [sep] + rest;
      assert s[1..] == rest;
    } else {
      assert s[0] == head[0] && s[1..] == head[1..] + [sep] + rest;
      assert sep !in head[1..];
      SplitAtFirst(head[1..], sep, rest);
      assert [head[0]] + head[1..] == head;
    }
  }

  /** The first-colon split of `location:rest` is `location` and the trimmed `rest`. */
  lemma SplitLocationAt(location: string, rest: string)
    requires ':' !in location
    ensures SplitLocation(location + ":" + rest) == (location, Trim(rest))
  {
    SplitAtFirst(location, ':', rest);
    assert (location + ":" + rest)[|location|] == ':';
  }

  lemma Regroup(a: string, b: string, c: string, d: string, e: string)
    ensures a + b + (c + d + e) == a + b + c + d + e
  {
  }

  /** A one-line output that starts with the only requested file is kept whole. */
  lemma SingleLineKept(text: string, file: string)
    requires |text| > 0 && !IsSpace(text[0]) && !IsSpace(text[|text| - 1]) && '\n' !in text
    requires StartsWith(text, file)
    ensures ReportedLines(text, [file]) == [text]
  {
    TrimUnchanged(text);
    SplitNoSeparator(text, '\n');
    assert IsReported([file], text);
  }

  /** The error text after `": "` is the message when the message has no white space at its ends. */
  lemma MessageAfterColon(location: string, message: string)
    requires ':' !in location
    requires |message| > 0 && !IsSpace(message[0]) && !IsSpace(message[|message| - 1])
    ensures SplitLocation(location + ": " + message) == (location, message)
  {
    var rest := " " + message;
    assert location + ": " + message == location + ":" + rest;
    SplitLocationAt(location, rest);
    TrimSpaceBefore(' ', message);
  }

  /** The location, link and error text of one `file(line,col): message` line. */
  lemma ErrorLineLocation(baseUrl: string, file: string, line: string, col: string, message: string)
    requires ':' !in file
    requires |line| > 0 && Decimal.AllDigits(line) && |col| > 0 && Decimal.AllDigits(col)
    requires |message| > 0 && !IsSpace(message[0]) && !IsSpace(message[|message| - 1])
    ensures var location := file + "(" + line + "," + col + ")";
            ToLocation(baseUrl, location + ": " + message)
            == Location(location, baseUrl + "/tree/main/" + file + "#L" + line, message)
  {
    ErrorLineParts(file, line, col, message);
  }

  /** The line `file(line,col): message` splits into `file(line,col)` and the message, and its location has the position form. */
  lemma ErrorLineParts(file: string, line: string, col: string, message: string)
    requires ':' !in file
    requires |line| > 0 && Decimal.AllDigits(line) && |col| > 0 && Decimal.AllDigits(col)
    requires |message| > 0 && !IsSpace(message[0]) && !IsSpace(message[|message| - 1])
    ensures var location := file + "(" + line + "," + col + ")";
            && SplitLocation(location + ": " + message) == (location, message)
            && IsPositionForm(location, file, line, col)
  {
    var location := file + "(" + line + "," + col + ")";
    assert ':' !in location by {
      assert forall i :: 0 <= i < |line| ==> line[i] != ':';
      assert forall i :: 0 <= i < |col| ==> col[i] != ':';
    }
    MessageAfterColon(location, message);
  }

  /**
   * A single compiler error line `file(line,col): message` for the requested
   * `file` yields exactly one location: `file(line,col)`, a link to
   * `file#L<line>` on `main`, and the message as the error text.
   */
  lemma SingleErrorLine(baseUrl: string, file: string, line: string, col: string, message: string)
    requires |file| > 0 && !IsSpace(file[0]) && ':' !in file && '\n' !in file
    requires |line| > 0 && Decimal.AllDigits(line) && |col| > 0 && Decimal.AllDigits(col)
    requires |message| > 0 && !IsSpace(message[0]) && !IsSpace(message[|message| - 1]) && '\n' !in message
    ensures var location := file + "(" + line + "," + col + ")";
            Locations(baseUrl, location + ": " + message, [file])
            == [Location(location, baseUrl + "/tree/main/" + file + "#L" + line, message)]
  {
    var location := file + "(" + line + "," + col + ")";
    var text := location + ": " + message;
    ErrorLineKept(file, line, col, message);
    ErrorLineParts(file, line, col, message);
    OneLineLocations(baseUrl, text, [file]);
  }

  /** A single error line for the requested file is kept whole. */
  lemma ErrorLineKept(file: string, line: string, col: string, message: string)
    requires |file| > 0 && !IsSpace(file[0]) && '\n' !in file
    requires Decimal.AllDigits(line) && Decimal.AllDigits(col)
    requires |message| > 0 && !IsSpace(message[|message| - 1]) && '\n' !in message
    ensures var text := file + "(" + line + "," + col + ")" + ": " + message;
            ReportedLines(text, [file]) == [text]
  {
    var text := file + "(" + line + "," + col + ")" + ": " + message;
    assert '\n' !in text by {
      assert forall i :: 0 <= i < |line| ==> line[i] != '\n';
      assert forall i :: 0 <= i < |col| ==> col[i] != '\n';
    }
    assert text == file + ("(" + line + "," + col + ")" + ": " + message);
    SingleLineKept(text, file);
  }

  /** Every link points into the `main` tree of `https://github.com/<owner>/<repo>`, at the rewritten location. */
  lemma LocationUrls(owner: string, repo: string, stdout: string, files: seq<string>)
    ensures var r := Locations(BaseUrl(owner, repo), stdout, files);
            forall i :: 0 <= i < |r| ==>
              r[i].url == "https://github.com/" + owner + "/" + repo + "/tree/main/" + GithubPath(r[i].location)
  {
    var baseUrl := BaseUrl(owner, repo);
    var r := Locations(baseUrl, stdout, files);
    forall i | 0 <= i < |r|
      ensures r[i].url == "https://github.com/" + owner + "/" + repo + "/tree/main/" + GithubPath(r[i].location)
    {
      assert r[i].url == Url(baseUrl, r[i].location);
    }
  }

  /** Output that is one kept line gives the one location of that line. */
  lemma OneLineLocations(baseUrl: string, stdout: string, files: seq<string>)
    requires ReportedLines(stdout, files) == [stdout]
    ensures var (location, error) := SplitLocation(stdout);
            Locations(baseUrl, stdout, files) == [Location(location, Url(baseUrl, location), error)]
  {
    var r := Locations(baseUrl, stdout, files);
    assert |r| == 1;
    assert (r[0].location, r[0].error) == SplitLocation(stdout);
  }

  // ---------------------------------------------------------------------
  // Rendering

  /** The pre-filled issue title. */
  function IssueTitle(prNumber: nat): (r: string)
    ensures StartsWith(r, "TypeScript errors - #")
    // `${prNumber}`: the canonical decimal spelling, without leading zeros
    ensures var n := r[|"TypeScript errors - #"|..];
            && |n| >= 1 && Decimal.AllDigits(n) && Decimal.Value(n) == prNumber
            && (n[0] == '0' ==> n == "0")
  {
    var r := "TypeScript errors - #" + Decimal.FromNat(prNumber);
    assert r[|"TypeScript errors - #"|..] == Decimal.FromNat(prNumber);
    r
  }

  function ChecklistItem(l: Location): string
  {
    "- [ ] [" + l.location + "](" + l.url + "): `" + l.error + "`"
  }

  function RefLine(baseUrl: string, prNumber: nat): string
  {
    "Ref " + baseUrl + "/pull/" + Decimal.FromNat(prNumber)
  }

  function IssueLines(baseUrl: string, prNumber: nat, locations: seq<Location>): (r: seq<string>)
    ensures |r| == |locations| + 1
  {
    seq(|locations|, i requires 0 <= i < |locations| => ChecklistItem(locations[i]))
    + [RefLine(baseUrl, prNumber)]
  }

  /** The pre-filled issue body: one checklist item per location, then a reference to the pull request. */
  function IssueBody(baseUrl: string, prNumber: nat, locations: seq<Location>): string
  {
    Join(IssueLines(baseUrl, prNumber, locations), '\n')
  }

  function TableRow(l: Location): string
  {
    "| [" + l.location + "](" + l.url + ") | `" + l.error + "` |"
  }

  function TableRows(locations: seq<Location>): (r: seq<string>)
    ensures |r| == |locations|
    ensures forall i :: 0 <= i < |r| ==>
              r[i] == "| [" + locations[i].location + "](" + locations[i].url + ") | `" + locations[i].error + "` |"
  {
    seq(|locations|, i requires 0 <= i < |locations| => TableRow(locations[i]))
  }

  /** The summary line, linking to a pre-filled new-issue form. */
  function Summary(baseUrl: string, prNumber: nat, locations: seq<Location>): string
  {
    SummaryLine(baseUrl, Uri.EncodeComponent(IssueTitle(prNumber)), Uri.EncodeComponent(IssueBody(baseUrl, prNumber, locations)))
  }

  function SummaryLine(baseUrl: string, encodedTitle: string, encodedBody: string): string
  {
    "TypeScript Report - <a href=\"" + baseUrl + "/issues/new?title=" + encodedTitle
    + "&body=" + encodedBody + "\">Create an issue</a>"
  }

  const Header: seq<string> := ["| Location | Error |", "| -------- | ----- |"]

  /** The lines of the comment, with the table rows already joined into one entry. */
  function Details(summary: string, rows: seq<string>): seq<string>
  {
    ["<details>", "<summary>", summary, "</summary>", "<br>"] + Header + [Join(rows, '\n'), "</details>"]
  }

  lemma DetailsEnds(summary: string, rows: seq<string>)
    ensures StartsWith(Join(Details(summary, rows), '\n'), "<details>\n<summary>\n")
    ensures EndsWith(Join(Details(summary, rows), '\n'), "\n</details>")
  {
    var parts := Details(summary, rows);
    assert |parts| == 9 && parts[0] == "<details>" && parts[1] == "<summary>" && parts[8] == "</details>";
    JoinStart(parts, '\n');
    assert parts[0] + ['\n'] + parts[1] + ['\n'] == "<details>\n<summary>\n";
    JoinEnd(parts, '\n');
    assert ['\n'] + parts[8] == "\n</details>";
  }

  /** The comment body: a collapsed `<details>` block holding the issue link and the table. */
  function CommentBody(baseUrl: string, prNumber: nat, locations: seq<Location>): (r: string)
    ensures StartsWith(r, "<details>\n<summary>\n")
    ensures EndsWith(r, "\n</details>")
  {
    var summary := Summary(baseUrl, prNumber, locations);
    var rows := TableRows(locations);
    DetailsEnds(summary, rows);
    Join(Details(summary, rows), '\n')
  }

  // ---------------------------------------------------------------------
  // Line structure of the rendered texts

  predicate NoNewline(s: string) { '\n' !in s }

  predicate LocationsOnOneLine(locations: seq<Location>) {
    forall i :: 0 <= i < |locations| ==>
      NoNewline(locations[i].location) && NoNewline(locations[i].url) && NoNewline(locations[i].error)
  }

  lemma ConcatNoNewline(a: string, b: string)
    requires NoNewline(a) && NoNewline(b)
    ensures NoNewline(a + b)
  {
  }

  /**
   * The issue body has one line per location, `- [ ] [loc](url): `err``,
   * followed by the `Ref <baseUrl>/pull/<n>` line, and nothing else.
   */
  lemma IssueBodyLines(baseUrl: string, prNumber: nat, locations: seq<Location>)
    requires NoNewline(baseUrl) && LocationsOnOneLine(locations)
    ensures var lines := Split(IssueBody(baseUrl, prNumber, locations), '\n');
            && |lines| == |locations| + 1
            && (forall i :: 0 <= i < |locations| ==>
                  lines[i] == "- [ ] [" + locations[i].location + "](" + locations[i].url + "): `" + locations[i].error + "`")
            && lines[|locations|] == "Ref " + baseUrl + "/pull/" + Decimal.FromNat(prNumber)
  {
    var lines := IssueLines(baseUrl, prNumber, locations);
    forall i | 0 <= i < |lines| ensures '\n' !in lines[i] {
      if i == |locations| {
        assert !('\n' in Decimal.FromNat(prNumber));
      }
    }
    SplitJoin(lines, '\n');
  }

  lemma EncodedNoNewline(s: string)
    ensures NoNewline(Uri.EncodeComponent(s))
  {
    assert !Uri.Unreserved('\n');
  }

  lemma SummaryLineNoNewline(baseUrl: string, encodedTitle: string, encodedBody: string)
    requires NoNewline(baseUrl) && NoNewline(encodedTitle) && NoNewline(encodedBody)
    ensures NoNewline(SummaryLine(baseUrl, encodedTitle, encodedBody))
  {
  }

  /** The summary line is one line: both query parameters are percent-encoded. */
  lemma SummaryNoNewline(baseUrl: string, prNumber: nat, locations: seq<Location>)
    requires NoNewline(baseUrl)
    ensures NoNewline(Summary(baseUrl, prNumber, locations))
  {
    var title := Uri.EncodeComponent(IssueTitle(prNumber));
    var body := Uri.EncodeComponent(IssueBody(baseUrl, prNumber, locations));
    EncodedNoNewline(IssueTitle(prNumber));
    EncodedNoNewline(IssueBody(baseUrl, prNumber, locations));
    SummaryLineNoNewline(baseUrl, title, body);
  }

  /** The line structure of the `<details>` frame around one-line rows. */
  lemma DetailsLines(summary: string, rows: seq<string>)
    requires NoNewline(summary)
    requires forall i :: 0 <= i < |rows| ==> NoNewline(rows[i])
    ensures Split(Join(Details(summary, rows), '\n'), '\n')
         == ["<details>", "<summary>", summary, "</summary>", "<br>"] + Header
            + (if |rows| == 0 then [""] else rows) + ["</details>"]
  {
    var head := ["<details>", "<summary>", summary, "</summary>", "<br>"] + Header;
    var parts := Details(summary, rows);
    if |rows| == 0 {
      assert parts == head + [""] + ["</details>"];
      SplitJoin(parts, '\n');
    } else {
      var lines := head + rows + ["</details>"];
      assert parts == head + [Join(rows, '\n')] + ["</details>"];
      JoinFlatten(head, rows, ["</details>"], '\n');
      assert forall i :: 0 <= i < |lines| ==> NoNewline(lines[i]);
      SplitJoin(lines, '\n');
    }
  }

  /**
   * The comment body's lines: `<details>`, `<summary>`, the summary line,
   * `</summary>`, `<br>`, the two header rows, one table row per location
   * in order (an empty line when there is none), `</details>`.
   */
  lemma CommentBodyLines(baseUrl: string, prNumber: nat, locations: seq<Location>)
    requires NoNewline(baseUrl) && LocationsOnOneLine(locations)
    ensures Split(CommentBody(baseUrl, prNumber, locations), '\n')
         == ["<details>", "<summary>", Summary(baseUrl, prNumber, locations), "</summary>", "<br>"]
            + Header
            + (if |locations| == 0 then [""] else TableRows(locations))
            + ["</details>"]
  {
    SummaryNoNewline(baseUrl, prNumber, locations);
    DetailsLines(Summary(baseUrl, prNumber, locations), TableRows(locations));
  }
}

=== FILE: seqs.dfy ===
/** Order-preserving filtering of sequences (`Array.prototype.filter`). */
module Seqs {

  /** `a` can be obtained from `b` by deleting elements, keeping the order of the rest. */
  predicate IsSubsequence<T(==)>(a: seq<T>, b: seq<T>)
    decreases |b|
  {
    if |a| == 0 then true
    else if |b| == 0 then false
    else if a[0] == b[0] then IsSubsequence(a[1..], b[1..])
    else IsSubsequence(a, b[1..])
  }

  /** The elements of `s` that satisfy `keep`, in the order they occur in `s`. */
  function Filter<T>(keep: T -> bool, s: seq<T>): (r: seq<T>)
    ensures |r| <= |s|
    ensures forall i :: 0 <= i < |r| ==> keep(r[i])
    ensures forall x :: x in r ==> x in s
  {
    if |s| == 0 then []
    else if keep(s[0]) then [s[0]] + Filter(keep, s[1..])
    else Filter(keep, s[1..])
  }

  /** Filtering loses nothing it should keep: every kept element of the input is in the output. */
  lemma {:induction false} FilterComplete<T>(keep: T -> bool, s: seq<T>, x: T)
    requires x in s && keep(x)
    ensures x in Filter(keep, s)
  {
    if s[0] != x {
      assert x in s[1..];
      FilterComplete(keep, s[1..], x);
    }
  }

  /** Membership in the output is exactly membership in the input plus the predicate. */
  lemma FilterMembership<T>(keep: T -> bool, s: seq<T>, x: T)
    ensures x in Filter(keep, s) <==> x in s && keep(x)
  {
    if x in s && keep(x) {
      FilterComplete(keep, s, x);
    }
  }

  /** Filtering keeps every copy: a kept value occurs as often in the output as in the input, a dropped one never. */
  lemma {:induction false} FilterCount<T>(keep: T -> bool, s: seq<T>, x: T)
    ensures multiset(Filter(keep, s))[x] == if keep(x) then multiset(s)[x] else 0
  {
    if |s| > 0 {
      FilterCount(keep, s[1..], x);
      assert s == [s[0]] + s[1..];
    }
  }

  /** The output is a subsequence of the input: filtering only deletes, never reorders. */
  lemma {:induction false} FilterIsSubsequence<T>(keep: T -> bool, s: seq<T>)
    ensures IsSubsequence(Filter(keep, s), s)
  {
    if |s| > 0 {
      FilterIsSubsequence(keep, s[1..]);
      var r := Filter(keep, s[1..]);
      if keep(s[0]) {
        assert Filter(keep, s) == [s[0]] + r;
        assert ([s[0]] + r)[1..] == r;
      } else {
        SubsequenceSkip(r, s);
      }
    }
  }

  /** A subsequence of the tail of `b` is a subsequence of `b`. */
  lemma {:induction false} SubsequenceSkip<T>(a: seq<T>, b: seq<T>)
    requires |b| > 0 && IsSubsequence(a, b[1..])
    ensures IsSubsequence(a, b)
    decreases |b|, 0
  {
    if |a| > 0 && a[0] == b[0] {
      // the greedy match takes b[0]; then a[1..] must fit into b[1..]
      SubsequenceDropHead(a, b[1..]);
    }
  }

  /** Dropping the first element of a subsequence leaves a subsequence. */
  lemma {:induction false} SubsequenceDropHead<T>(a: seq<T>, b: seq<T>)
    requires |a| > 0 && IsSubsequence(a, b)
    ensures IsSubsequence(a[1..], b)
    decreases |b|, 1
  {
    if a[0] == b[0] {
      if |b[1..]| > 0 {
        SubsequenceSkip(a[1..], b);
      } else {
        assert |a[1..]| == 0;
      }
    } else {
      SubsequenceDropHead(a, b[1..]);
      SubsequenceSkip(a[1..], b);
    }
  }
}

=== FILE: uri.dfy ===
/**
 * `encodeURIComponent` (ECMA-262, section 19.2.6.5): every character outside
 * the unreserved set is written as the percent-escaped octets of its UTF-8
 * encoding, each octet as `%` followed by two upper-case hexadecimal digits
 * (the escaping of section 2.1 of RFC 3986). A Dafny `char` is a Unicode
 * scalar value, so the lone-surrogate `URIError` case cannot arise.
 */
module Uri {
  import opened Wrappers
  import JsString

  /** Characters `encodeURIComponent` leaves as they are: ASCII letters, digits and `-_.!~*'()`. */
  predicate Unreserved(c: char) {
    || ('A' <= c <= 'Z') || ('a' <= c <= 'z') || ('0' <= c <= '9')
    || c == '-' || c == '_' || c == '.' || c == '!' || c == '~' || c == '*' || c == '\'' || c == '(' || c == ')'
  }

  function HexDigit(d: nat): (c: char)
    requires d < 16
    ensures Unreserved(c)
  {
    if d < 10 then ('0' as int + d) as char else ('A' as int + d - 10) as char
  }

  /** The value of a hexadecimal digit of either case. */
  function HexValue(c: char): Option<nat>
  {
    if '0' <= c <= '9' then Some(c as int - '0' as int)
    else if 'A' <= c <= 'F' then Some(c as int - 'A' as int + 10)
    else if 'a' <= c <= 'f' then Some(c as int - 'a' as int + 10)
    else None
  }

  /** The UTF-8 encoding of one scalar value, as octets. */
  function Utf8(c: char): (bs: seq<nat>)
    ensures 1 <= |bs| <= 4
    ensures forall i :: 0 <= i < |bs| ==> bs[i] < 256
  {
    var n := c as int;
    if n < 0x80 then [n]
    else if n < 0x800 then [0xC0 + n / 64, 0x80 + n % 64]
    else if n < 0x10000 then [0xE0 + n / 4096, 0x80 + (n / 64) % 64, 0x80 + n % 64]
    else [0xF0 + n / 262144, 0x80 + (n / 4096) % 64, 0x80 + (n / 64) % 64, 0x80 + n % 64]
  }

  /** `%XY` for one octet. */
  function Escape(b: nat): string
    requires b < 256
  {
    ['%', HexDigit(b / 16), HexDigit(b % 16)]
  }

  function EscapeAll(bs: seq<nat>): (s: string)
    requires forall i :: 0 <= i < |bs| ==> bs[i] < 256
    ensures |s| == 3 * |bs|
    ensures forall i :: 0 <= i < |s| ==> Unreserved(s[i]) || s[i] == '%'
  {
    if |bs| == 0 then "" else Escape(bs[0]) + EscapeAll(bs[1..])
  }

  function EncodeChar(c: char): string
  {
    if Unreserved(c) then [c] else EscapeAll(Utf8(c))
  }

  /** `encodeURIComponent(s)`. Its output is made of unreserved characters and `%` only. */
  function EncodeComponent(s: string): (r: string)
    ensures forall i :: 0 <= i < |r| ==> Unreserved(r[i]) || r[i] == '%'
    ensures |r| >= |s|
  {
    if |s| == 0 then "" else EncodeChar(s[0]) + EncodeComponent(s[1..])
  }

  // ---------------------------------------------------------------------
  // The inverse, used to state that the encoding loses no information.

  /** The octet of a `%XY` escape at the start of `s`. */
  function ReadEscape(s: string): Option<nat>
  {
    if |s| >= 3 && s[0] == '%' && HexValue(s[1]).Some? && HexValue(s[2]).Some?
    then Some(HexValue(s[1]).value * 16 + HexValue(s[2]).value)
    else None
  }

  /** `n` consecutive escapes at the start of `s`. */
  function ReadEscapes(s: string, n: nat): Option<seq<nat>>
    decreases n
  {
    if n == 0 then Some([])
    else match ReadEscape(s)
      case None => None
      case Some(b) =>
        if |s| < 3 then None
        else match ReadEscapes(s[3..], n - 1)
          case None => None
          case Some(bs) => Some([b] + bs)
  }

  /** How many octets a UTF-8 sequence starting with `lead` has (0 if `lead` cannot start one). */
  function SequenceLength(lead: nat): nat
  {
    if lead < 0x80 then 1
    else if 0xC0 <= lead < 0xE0 then 2
    else if 0xE0 <= lead < 0xF0 then 3
    else if 0xF0 <= lead < 0xF8 then 4
    else 0
  }

  function Continuation(b: nat): int { b - 0x80 }

  /** The scalar value a UTF-8 sequence denotes, if it denotes one. */
  function DecodeUtf8(bs: seq<nat>): Option<char>
  {
    var n :=
      if |bs| == 1 then bs[0]
      else if |bs| == 2 then (bs[0] - 0xC0) * 64 + Continuation(bs[1])
      else if |bs| == 3 then (bs[0] - 0xE0) * 4096 + Continuation(bs[1]) * 64 + Continuation(bs[2])
      else if |bs| == 4 then (bs[0] - 0xF0) * 262144 + Continuation(bs[1]) * 4096 + Continuation(bs[2]) * 64 + Continuation(bs[3])
      else -1;
    if (0 <= n < 0xD800) || (0xE000 <= n < 0x11_0000) then Some(n as char) else None
  }

  /** Percent-decoding followed by UTF-8 decoding; `None` on a malformed escape. */
  function Decode(s: string): Option<string>
    decreases |s|
  {
    if |s| == 0 then Some("")
    else if s[0] != '%' then
      match Decode(s[1..])
      case None => None
      case Some(t) => Some([s[0]] + t)
    else match ReadEscape(s)
      case None => None
      case Some(lead) =>
        var n := SequenceLength(lead);
        if n == 0 || |s| < 3 * n then None
        else match ReadEscapes(s, n)
          case None => None
          case Some(bs) =>
            match DecodeUtf8(bs)
            case None => None
            case Some(c) =>
              match Decode(s[3 * n..])
              case None => None
              case Some(t) => Some([c] + t)
  }

  lemma HexRoundTrip(d: nat)
    requires d < 16
    ensures HexValue(HexDigit(d)) == Some(d)
  {
  }

  lemma EscapeRead(b: nat, rest: string)
    requires b < 256
    ensures ReadEscape(Escape(b) + rest) == Some(b)
    ensures (Escape(b) + rest)[3..] == rest
  {
    HexRoundTrip(b / 16);
    HexRoundTrip(b % 16);
  }

  lemma {:induction false} EscapesRead(bs: seq<nat>, rest: string)
    requires forall i :: 0 <= i < |bs| ==> bs[i] < 256
    ensures ReadEscapes(EscapeAll(bs) + rest, |bs|) == Some(bs)
    ensures (EscapeAll(bs) + rest)[3 * |bs|..] == rest
  {
    if |bs| > 0 {
      var s := EscapeAll(bs) + rest;
      var head, tail := Escape(bs[0]), EscapeAll(bs[1..]);
      JsString.Reassociate(head, tail, rest);
      EscapeRead(bs[0], tail + rest);
      EscapesRead(bs[1..], rest);
      assert s[3..] == tail + rest;
      assert [bs[0]] + bs[1..] == bs;
    }
  }

  lemma DivSplit(n: nat, k: nat)
    requires k > 0
    ensures n == (n / k) * k + n % k
  {
  }

  lemma NestedDiv64(n: nat)
    ensures (n / 64) / 64 == n / 4096
    ensures (n / 4096) / 64 == n / 262144
  {
  }

  /** UTF-8 decoding inverts UTF-8 encoding on every scalar value. */
  lemma Utf8RoundTrip(c: char)
    ensures SequenceLength(Utf8(c)[0]) == |Utf8(c)|
    ensures DecodeUtf8(Utf8(c)) == Some(c)
  {
    var n := c as int;
    var bs := Utf8(c);
    DivSplit(n, 64);
    DivSplit(n / 64, 64);
    DivSplit(n / 4096, 64);
    NestedDiv64(n);
    if n < 0x80 {
    } else if n < 0x800 {
      assert bs[0] - 0xC0 == n / 64;
      assert Continuation(bs[1]) == n % 64;
    } else if n < 0x10000 {
      assert bs[0] - 0xE0 == n / 4096;
      assert Continuation(bs[1]) == (n / 64) % 64;
      assert Continuation(bs[2]) == n % 64;
      assert (n / 4096) * 4096 + ((n / 64) % 64) * 64 == (n / 64) * 64;
    } else {
      assert bs[0] - 0xF0 == n / 262144;
      assert (n / 262144) * 262144 + ((n / 4096) % 64) * 4096 == (n / 4096) * 4096;
      assert (n / 4096) * 4096 + ((n / 64) % 64) * 64 == (n / 64) * 64;
    }
  }

  /** What the decoder reads at the start of an escaped octet sequence. */
  lemma EscapedSequenceReads(bs: seq<nat>, rest: string)
    requires 1 <= |bs| && forall i :: 0 <= i < |bs| ==> bs[i] < 256
    ensures var s := EscapeAll(bs) + rest;
            && |s| >= 3 * |bs| && s[0] == '%'
            && ReadEscape(s) == Some(bs[0])
            && ReadEscapes(s, |bs|) == Some(bs)
            && s[3 * |bs|..] == rest
  {
    var s := EscapeAll(bs) + rest;
    EscapesRead(bs, rest);
    var head, tail := Escape(bs[0]), EscapeAll(bs[1..]);
    assert EscapeAll(bs) == head + tail;
    JsString.Reassociate(head, tail, rest);
    EscapeRead(bs[0], tail + rest);
  }

  /** Escaped octets of a well-formed UTF-8 sequence decode to its character. */
  lemma EscapedSequenceDecodes(bs: seq<nat>, c: char, rest: string, t: string)
    requires 1 <= |bs| && forall i :: 0 <= i < |bs| ==> bs[i] < 256
    requires SequenceLength(bs[0]) == |bs| && DecodeUtf8(bs) == Some(c)
    requires Decode(rest) == Some(t)
    ensures Decode(EscapeAll(bs) + rest) == Some([c] + t)
  {
    EscapedSequenceReads(bs, rest);
  }

  lemma EscapedCharDecodes(c: char, rest: string, t: string)
    requires !Unreserved(c) && Decode(rest) == Some(t)
    ensures Decode(EscapeAll(Utf8(c)) + rest) == Some([c] + t)
  {
    Utf8RoundTrip(c);
    EscapedSequenceDecodes(Utf8(c), c, rest, t);
  }

  lemma EncodeCharDecodes(c: char, rest: string, t: string)
    requires Decode(rest) == Some(t)
    ensures Decode(EncodeChar(c) + rest) == Some([c] + t)
  {
    if Unreserved(c) {
      var s := [c] + rest;
      assert s[0] == c && s[1..] == rest;
    } else {
      EscapedCharDecodes(c, rest, t);
    }
  }

  /** Decoding recovers the input of `encodeURIComponent`: the encoding is injective. */
  lemma {:induction false} EncodeDecode(s: string)
    ensures Decode(EncodeComponent(s)) == Some(s)
  {
    if |s| > 0 {
      EncodeDecode(s[1..]);
      EncodeCharDecodes(s[0], EncodeComponent(s[1..]), s[1..]);
      assert [s[0]] + s[1..] == s;
    }
  }
}

=== FILE: wrappers.dfy ===
/** The optional-value and value-or-error datatypes shared by the model. */
module Wrappers {

  /** An optional value: the model of a JavaScript value that may be `undefined`. */
  datatype Option<+T> = None | Some(value: T)

  /** Either a computed value or the message a run fails with. */
  datatype Result<+R, +E> = Success(value: R) | Failure(error: E)
}
